=== FILE: README.md ===
# websocket-room-server in Dafny

A model of the core of a room-based state-synchronisation server. Clients
open a WebSocket, send a hello naming a room, and are registered as members
of that room. The model covers three parts:

- **The message validators** (`Messages`). They turn an untrusted parsed JSON
  value into a typed hello, change, action or close request, or they throw.
  They are modelled over a JavaScript value type (`Js.Value`): undefined,
  null, booleans, numbers, strings, arrays and objects. JavaScript `typeof`
  and truthiness are explicit functions, and reading a property of null or
  undefined throws a TypeError.
- **The connection and room state machine** (`RoomServer`). The server is an
  immutable record holding the rooms, the connection counter, and the state
  of each connection. Pure transitions step it on transport events: accept,
  message, hello timeout, heartbeat tick, pong, close and disconnect. Each
  step returns what it asks of the transport as effects: close with a code
  and reason, terminate, ping. An exception that escapes an event handler is
  also an effect. `RoomServerProofs` proves the invariant of every reachable
  state and the behaviour of the hello, tidy-up, heartbeat and timeout paths.
- **The test server's example hooks** (`TestServerHooks`). Three small
  policies: a hello hook that admits one room protocol, a change hook that
  passes changes through, and an action hook that echoes the `test` action.

The hello hook is asynchronous in the server. In the model, its answer
(`HookReply`) is an input of the message event, and the state records
whether a hook is configured. Connection number `n` has client id
`connection:n`. `Decimal` renders `n` and reads it back, which is what makes
client ids distinct.

Behaviour modelled as the code has it, where it differs from what a reader
might expect:

- With no hook, a missing `readonly` registers the client as writable
  (`!!undefined` is false). The validator copies `readonly` as it is and
  does not default it to true.
- Falsy values of any type pass as optional strings and are copied as they
  are.
- `validateKVStore` accepts null and arrays of strings. It returns its input
  unchanged.
- The catch block closes with the literal reason
  `internal error: ${err.message}`. It is a plain quoted string, so the
  error's message is never interpolated into it.
- The wrong-protocol reason lacks its closing parenthesis.
- The rooms live in a plain JavaScript object. A room id that names an
  inherited member (`toString`, `__proto__`, ...) finds something that is
  not a room. The hello then throws after the connection has become active,
  and the later close event throws out of `tidyUp`.
- `tidyUp` tests the room id for truthiness, so a client of the room `""` is
  never removed.
- The test server's hello hook reads `sws.cookies` from a fourth argument
  that the server never passes. With that hook configured, every hello
  throws and closes with the internal-error reason.
- Only `WAITING_FOR_HELLO` and `ACTIVE` are ever assigned. A message in any
  other status is ignored, not treated as a protocol violation.

## Model

| member | source | states |
|---|---|---|
| Messages.MessageTypeCodesRoundTrip | src/messages.ts:19-28 | each message type's numeric code maps back to that type, so the eight codes are distinct |
| Messages.MessageTypeOfRoundTrip | src/messages.ts:19-28 | every code 0..7 names the member declared in that position |
| Messages.ValidateKVStore | src/messages.ts:128-142 | accepts exactly null, arrays of strings and objects of strings; a non-object, including undefined, throws the type error and a non-string value throws the value error; on success the input is returned unchanged |
| Messages.KVStoreRoundTrip | src/messages.ts:128-142 | a string-to-string store encoded as an object validates to itself and decodes back to the same map |
| Messages.ValidateHelloReq | src/messages.ts:103-127 | succeeds iff the input is a non-null object with string protocol, roomProtocol and roomId, the four optional strings falsy or strings, readonly null/undefined/boolean, and a valid client state; copies all nine fields verbatim; a non-object throws "Invalid HelloReq" and null throws a TypeError |
| Messages.HelloRejectsTruthyNonString | src/messages.ts:108-111 | a truthy non-string roomCredential, clientCredential, clientType or clientName rejects the request |
| Messages.HelloAcceptsFalsyOptional | src/messages.ts:108-123 | setting any of the four optional string fields of an accepted request to a falsy value of any type keeps it accepted, and only that field of the result changes, to exactly that value |
| Messages.HelloReadsOnlyItsFields | src/messages.ts:103-127 | two objects that agree on the nine fields the validator reads validate to the same outcome |
| Messages.HelloReqRoundTrip | src/messages.ts:103-127 | a hello request sent as an object validates back to itself exactly when its optional strings are falsy or strings, its readonly is null, undefined or boolean, and its client state is a valid store |
| Messages.HelloReqIdempotent | src/messages.ts:103-127 | every validated request is well formed, and validating it again gives it back |
| Messages.HelloReadonlyNotDefaulted | src/messages.ts:112-125 | an absent readonly stays undefined in the validated request |
| Messages.HelloFailsWithClientState | src/messages.ts:124 | a client state that validateKVStore rejects, including an absent one, fails the hello with the store's error |
| Messages.ValidateEntries | src/messages.ts:161-171 | accepts iff every element has a string key and a falsy-or-string value; on success keeps length and order and copies key and value per element; on failure throws the error of the first bad element (TypeError for null/undefined) |
| Messages.ValidateKVSets | src/messages.ts:157-172 | rejects non-arrays; otherwise accepts and copies exactly as the element loop does |
| Messages.KVSetsRoundTrip | src/messages.ts:157-172 | entries with falsy-or-string values, encoded as `{key, value}` objects, validate back to themselves |
| Messages.KVSetsIdempotent | src/messages.ts:162-171 | validating the validator's own output succeeds and gives the same entries |
| Messages.ValidateChangeReq | src/messages.ts:143-156 | requires a non-null object with numeric type 2 and echo null/undefined/boolean; echo copied; both lists are validated and kept only when roomChanges is truthy, otherwise both are undefined |
| Messages.ChangeReqGuardCounterexample | src/messages.ts:153-154 | as written, room changes without client changes are rejected and client changes without room changes are dropped |
| Messages.ValidateChangeReqIntended | src/messages.ts:143-156 | corrected validator: each list is validated and kept exactly when it is truthy |
| Messages.ValidateOptionalKVSets | src/messages.ts:153 | a falsy list gives undefined; a truthy one is validated |
| Messages.ChangeReqIntendedKeepsOneSidedChanges | src/messages.ts:153-154 | the corrected validator accepts both one-sided requests and keeps their lists |
| Messages.ChangeReqValidatorsAgreeOnBothLists | src/messages.ts:150-155 | when both lists are truthy, the code as written and the corrected validator agree |
| Messages.ValidateActionReq | src/messages.ts:173-188 | succeeds iff a non-null object with numeric type 4, a string action, and falsy-or-string id and data; copies action, id and data verbatim |
| Messages.ValidateCloseReq | src/messages.ts:189-202 | succeeds iff a non-null object with numeric type 6, flush null/undefined/boolean and msg falsy-or-string; copies flush and msg |
| Messages.CloseReqRoundTrip | src/messages.ts:189-202 | a close request sent as an object validates back to itself exactly when its flush is null, undefined or boolean and its msg is falsy or a string |
| Messages.ActionReqRoundTrip | src/messages.ts:173-188 | an action request sent as an object validates back to itself exactly when its id and data are falsy or strings |
| Messages.DiscriminantsExclusive | src/messages.ts:143-202 | no value passes two of the change, action and close validators |
| Decimal.ReadShow | src/server.ts:88 | the decimal rendering of the counter reads back to the counter |
| Decimal.ShowInjective | src/server.ts:88 | distinct counter values render differently |
| RoomServer.ClientId | src/server.ts:88 | a client id is "connection:" followed by the decimal digits of the connection's number |
| RoomServer.Init | src/server.ts:47-50 | a fresh server has no rooms and no connections, its counter is 0, and it satisfies the invariant |
| RoomServer.Step | src/server.ts:96-149 | dispatches each event to its handler; only an accepted connection advances the counter; every event other than accept and the heartbeat acts on and reports about its own connection alone |
| RoomServer.Accept | src/server.ts:151-157 | a new connection takes the next counter value, waits for its hello with the timer armed, and starts alive; nothing else changes |
| RoomServer.CloseSocket | src/server.ts:181-186 | closing asks the transport to close with code 1002 and the given reason; it disarms the hello timer and changes nothing else, no room in particular |
| RoomServer.OnMessage | src/server.ts:96-140 | a message on a connection not waiting for its hello changes nothing; otherwise only that connection and the rooms change, and no room disappears |
| RoomServer.Decide | src/server.ts:99-139 | admits iff the text parses, validates, names the server protocol and (with a hook) the hook accepts; without a hook it uses the request's client state and `!!readonly`; a wrong protocol gives the wrong-protocol reason; a hook rejection with null or undefined escapes as a TypeError; every other failure gives the literal internal-error reason |
| RoomServer.Register | src/server.ts:109-131 | clears the timer, sets ACTIVE and the room id; creates an absent room with empty state; keeps an existing room's state and other clients; adds only this client's entry; an inherited room id throws into the catch block instead |
| RoomServer.TidyUp | src/server.ts:160-170 | clears the timer; removes this client's entry only from the room it recorded, only when that room id is truthy; keeps every room; throws when the room id names an inherited member |
| RoomServer.OnSocketClosed | src/server.ts:141-144 | a close event changes the rooms as tidyUp does; only this connection changes, to closed with its timer cleared, and the counter and every other connection are unchanged |
| RoomServer.OnDisconnect | src/server.ts:145-148 | a disconnect event changes the rooms and escapes exactly as a close does, but only this connection's timer is cleared: the socket stays open and nothing else changes |
| RoomServer.WrongProtocolReason | src/server.ts:103 | the reason carries the client's protocol after "wrong protocol (" and ends with " vs " and the server's protocol, with no closing parenthesis |
| RoomServerProofs.WrongProtocolReasonInjective | src/server.ts:103 | distinct client protocols give distinct wrong-protocol reasons |
| RoomServerProofs.DisconnectThenCloseMatchesClose | src/server.ts:141-148 | a disconnect followed by the close event leaves the server as the close alone would |
| RoomServer.OnHelloTimeout | src/server.ts:177-180 | an armed timer closes with code 1002 and "no hello received in time"; a cleared timer does nothing |
| RoomServer.OnPong | src/server.ts:149 | a pong marks the connection alive and changes nothing else |
| RoomServer.Tick | src/server.ts:58-69 | terminates exactly the open connections not alive, pings exactly the others, and marks every open connection not alive |
| RoomServerProofs.ClientIdInjective | src/server.ts:88 | distinct connection numbers give distinct client ids |
| RoomServerProofs.AllClientIdsInjective | src/server.ts:88 | client ids are injective in the connection number |
| RoomServerProofs.AcceptAllocatesFreshId | src/server.ts:88 | in a reachable state, an accepted connection's number and id are new to every connection and every room |
| RoomServerProofs.CounterIncreasesOnlyOnAccept | src/server.ts:88 | only an accepted connection advances the counter, by one |
| RoomServerProofs.AcceptPreservesValid | src/server.ts:151-157 | accepting keeps the invariant |
| RoomServerProofs.CloseSocketPreservesValid | src/server.ts:181-186 | closing keeps the invariant |
| RoomServerProofs.RegisterEntryOwned | src/server.ts:112-131 | after registration every room entry belongs to a connection that recorded that room |
| RoomServerProofs.RegisterPreservesValid | src/server.ts:109-131 | the hello success path keeps the invariant |
| RoomServerProofs.RegisterConnsOk | src/server.ts:109-111 | after the success path every connection is numbered in range and its status, room id and timer agree |
| RoomServerProofs.RegisterRoomsOk | src/server.ts:114-124 | after the success path every room is keyed by its own id and none by an inherited name |
| RoomServerProofs.TimeoutPreservesValid | src/server.ts:177-180 | the hello timeout keeps the invariant |
| RoomServerProofs.TickPreservesValid | src/server.ts:58-69 | the heartbeat keeps the invariant |
| RoomServerProofs.PongPreservesValid | src/server.ts:149 | a pong keeps the invariant |
| RoomServerProofs.ClosePreservesValid | src/server.ts:141-148 | the close and disconnect events keep the invariant |
| RoomServerProofs.MessagePreservesValid | src/server.ts:96-140 | every message keeps the invariant |
| RoomServerProofs.StepPreservesValid | src/server.ts:96-186 | every event keeps the invariant |
| RoomServerProofs.RunPreservesValid | src/server.ts:96-186 | any sequence of events keeps the invariant |
| RoomServerProofs.ReachableIsValid | src/server.ts:47-50 | every state reachable from a fresh server satisfies the invariant |
| RoomServerProofs.ClientInOneRoom | src/server.ts:112-131 | in a reachable state a client is listed in at most one room, and its connection is ACTIVE |
| RoomServerProofs.StatusOnlyBecomesActive | src/server.ts:99-111 | the only status change any event makes is WAITING_FOR_HELLO to ACTIVE |
| RoomServerProofs.MessageIgnoredUnlessWaiting | src/server.ts:99-133 | a message in any status other than WAITING_FOR_HELLO changes nothing |
| RoomServerProofs.WrongProtocolCloses | src/server.ts:102-105 | a wrong generic protocol closes with 1002 before the hook is consulted: the hook's answer makes no difference, no room is created and nothing is registered |
| RoomServerProofs.HelloErrorCloses | src/server.ts:136-139 | a parse failure, a validation failure or a hook rejection with an error object closes with 1002 and the literal internal-error reason and registers nothing |
| RoomServerProofs.NullishRejectionEscapes | src/server.ts:136-139 | a hook that rejects with null or undefined makes the catch block throw reading `err.message`: the TypeError escapes, the socket is not closed; on a host that survives the escape, the connection keeps waiting until its hello timer closes it |
| RoomServerProofs.ErrorReasonIgnoresError | src/server.ts:136-139 | any two hellos that throw, whether from unparseable text, a validation error or a hook error, and whatever the errors, lead to the same state and the same close |
| RoomServerProofs.HelloSuccessRegisters | src/server.ts:110-131 | a successful hello clears the timer, becomes ACTIVE with its room id, creates an absent room holding just this client, or adds just this client to an existing room |
| RoomServerProofs.DefaultHelloUsesRequest | src/server.ts:106-108 | without a hook the client keeps its declared state and is read-only iff its readonly is truthy, so an absent flag makes it writable |
| RoomServerProofs.InheritedRoomIdEscapes | src/server.ts:114-125 | a room id naming an inherited member closes the socket after it became ACTIVE, creates no room, and makes the later close event throw |
| RoomServerProofs.EmptyRoomIdOutlivesClose | src/server.ts:162 | a client of the room with the empty id is not removed on close |
| RoomServerProofs.TidyUpRemovesOnlyOwnEntry | src/server.ts:160-168 | closing removes this client's entry from its room and changes no other room; no room is deleted |
| RoomServerProofs.TidyUpIdempotent | src/server.ts:160-176 | a second close or disconnect changes nothing more |
| RoomServerProofs.TwoSilentTicksTerminate | src/server.ts:60-67 | a connection that answers neither of two consecutive probes is terminated at the second tick |
| RoomServerProofs.PongBetweenTicksKeepsAlive | src/server.ts:149 | a pong between two ticks means the second tick pings instead of terminating |
| RoomServerProofs.NewConnectionSurvivesFirstTick | src/server.ts:157 | a connection just accepted is pinged, not terminated, by the next tick |
| RoomServerProofs.HelloTimeoutCloses | src/server.ts:177-180 | an armed hello timer closes with 1002 and "no hello received in time" and touches no room |
| RoomServerProofs.HelloTimeoutIgnoredWhenActive | src/server.ts:110 | in a reachable state the hello timer of an ACTIVE connection cannot fire |
| RoomServerProofs.TimeoutAfterHelloIgnored | src/server.ts:171-176 | once a hello has succeeded, a timeout does nothing |
| TestServerHooks.OnHelloReq | testserver/src/index.ts:37-48 | throws a TypeError when the socket argument is null or undefined; otherwise rejects unless the room protocol is "cardographer:1", and returns the request's client state and `!!readonly` when it is |
| TestServerHooks.OnChangeReq | testserver/src/index.ts:49-57 | returns both lists unchanged with echo made boolean |
| TestServerHooks.OnActionReq | testserver/src/index.ts:58-69 | answers exactly the `test` action, with ACTION_RESP, success, and the request's id and data; any other action gets undefined |
| TestServerHooks.TestHelloHookAgreesWithDefault | testserver/src/index.ts:37-47 | given a socket argument, the test hook admits a client of its own room protocol exactly as the server's default would |
| TestServerHooks.TestHelloHookRefusesOtherRoomProtocol | testserver/src/index.ts:39-42 | with the test hook, with or without a socket argument, any other room protocol closes the socket and registers nothing |
| TestServerHooks.TestHelloHookAdmitsNoOneInThisServer | testserver/src/index.ts:37-39 | called with three arguments, as src/server.ts:107 calls it, the test hook throws on every hello, so every hello closes with the internal-error reason and the connection stays unregistered |
| TestServerHooks.ChangeHookAfterValidation | testserver/src/index.ts:52-56 | after validation, the change hook echoes iff the request's echo is the boolean true |
| TestServerHooks.ActionHookEchoesId | testserver/src/index.ts:60-67 | the response to a validated `test` action carries the request's own id and data |

## Left out

- The WebSocket upgrade plumbing, the `EventEmitter` wiring, logging and the socket `error` handler (src/server.ts:76-87,89-95). They move no state. The counter increment on line 88 is modelled by `RoomServer.Accept`.
- `JSON.parse`: a message arrives already parsed, or marked unparseable, which is handled as the SyntaxError it throws.
- Real timers and clocks: `setInterval`, `setTimeout`, `Date.now` and the `lastEvent` field. The hello timeout and the heartbeat tick are explicit events, so the 5000 ms and 10000 ms constants do not appear. Stopping the heartbeat when the server closes (src/server.ts:71-73) has no event in the model.
- Async interleaving. The model steps a hello atomically, with the hook's answer as an input. In the server, other events can run during the `await` of the hello hook (src/server.ts:107), which has three consequences the model cannot express:
  - A second message on the same connection is processed as another hello, because the status is still WAITING_FOR_HELLO. If both hellos are admitted, both register, so one client can be listed in two rooms.
  - A close event during the await runs tidyUp while the room id is still unset, so nothing is removed. The resumed handler then sets ACTIVE and adds the client's room entry, and no later event removes it.
  - A hello timeout during the await closes the socket, and registration still follows.

  Without a hello hook, lines 99-131 contain no `await`, and the model is exact. With a hook configured, the following describe the program only when hellos do not interleave: `RoomServerProofs.ClientInOneRoom`, the last conjunct of `RoomServer.Valid` (every room entry belongs to a connection that records that room) with `RoomServerProofs.ReachableIsValid`, and the tidy-up removal lemmas `RoomServerProofs.TidyUpRemovesOnlyOwnEntry` and `RoomServerProofs.TidyUpIdempotent`.
- The hook is called with the module-level `wss` rather than the receiving server. The hook is an input here, so this is not visible.
- A hook's `readonly` result is taken as a boolean, as its declared type says.
- Change broadcast, action dispatch, roster exposure, the leave hook, and the CLOSING/FLUSHING paths. The server code has TODOs there and implements none of them. The change, action and close validators are modelled, but no server path calls them.
- The hello hook is taken as set before the first connection, and fixed from then on: `hasHelloHook` is chosen at `Init` and no event changes it. In the server, `onHelloReq` is a public field that can be assigned at any time (src/server.ts:51). The test server assigns it once, synchronously at startup (testserver/src/index.ts:37).
- The module-level singleton `wss` (src/server.ts:188) and the re-exports of src/index.ts.
- The test server's HTTP, static-file and cookie setup (testserver/src/index.ts:14-32) and its logging. The read of `sws.cookies` on line 39 is modelled, because it throws. The test server targets another version of the package, whose exports differ.
- TestServerHooks.TestHelloHookAgreesWithDefault: the lemma assumes a server that passes the socket as the hook's fourth argument. The server here (src/server.ts:107) passes three arguments, so line 39 of the test server throws. `TestServerHooks.TestHelloHookAdmitsNoOneInThisServer` states what then happens.
- RoomServer.Accept: the counter is an unbounded natural number. In the server it is a JavaScript number (src/server.ts:50,88), and `++` stops increasing at 2^53, after which client ids would repeat. `RoomServerProofs.ClientIdInjective` and `RoomServerProofs.AcceptAllocatesFreshId` hold only below that bound, which no server reaches in practice.
- The transport: `close`, `terminate` and `ping` are effects, and what follows from them is an input event. The model takes it that the transport delivers no message or pong after a socket's close event.
- Property reads are modelled for the field names the validators read, which no array, string, number, boolean or plain object inherits. Numbers are integers. Non-integral numbers are truthy, are not equal to any discriminant, and so behave like other non-zero integers.
- Room state (`Room.state`) is created empty. The server never writes it, because change requests are not processed.
- The TypeErrors escaping `RoomServer.Decide` (a hook rejection with null or undefined, inside the `async` message listener of src/server.ts:96) and `RoomServer.TidyUp` are reported as `Uncaught` effects. Later steps describe a host that survives them. Node's default since version 15 ends the process on an unhandled rejection or uncaught exception instead, and the test server installs no handler.

Where the code's own comments, names and declarations suggest otherwise, the model follows what the code does:

- A hello without `readonly` registers a writable client, although the field carries the comment `// default true` (src/messages.ts:13).
- PROCESSING_HELLO is declared (src/server.ts:8) but never entered. A message in any status other than WAITING_FOR_HELLO is ignored, not refused.
- A hook rejection is caught by the catch block (src/server.ts:136-139), which closes with the fixed internal-error reason, not with the hook's own message. A rejection with null or undefined makes the catch block itself throw, so the socket is not closed; the process survives this only on a host that handles the rejection.

## Findings

| source | as written | input that shows it | evidently intended | confidence | as-written member | corrected member |
|---|---|---|---|---|---|---|
| src/messages.ts:154 | the client changes are validated and kept only when `roomChanges` is truthy, and are then validated even when absent | `{type: 2, roomChanges: [{key: "x", value: "1"}]}` throws "Invalid KVSets (object)"; `{type: 2, clientChanges: [{key: "x", value: "1"}]}` is accepted with its client changes dropped | the client-change list is validated and kept exactly when `clientChanges` is truthy, as the room-change list is on the line above | high (not executed) | Messages.ChangeReqGuardCounterexample | Messages.ValidateChangeReqIntended |

=== FILE: Decimal.dfy ===
/**
 Decimal rendering of a natural number, as a template literal `${n}`
 renders one, and the parse that reads it back.
 */
module Decimal {

  function DigitChar(d: nat): (c: char)
    requires d < 10
    ensures '0' <= c <= '9'
  {
    ('0' as int + d) as char
  }

  function DigitValue(c: char): nat
  {
    if '0' <= c <= '9' then c as int - '0' as int else 0
  }

  /** The shortest decimal digits of `n`, most significant first. */
  function Show(n: nat): (s: string)
    ensures |s| > 0
    decreases n
  {
    if n < 10 then [DigitChar(n)] else Show(n / 10) + [DigitChar(n % 10)]
  }

  /** Reads a string of decimal digits. */
  function Read(s: string): nat
    decreases |s|
  {
    if |s| == 0 then 0 else Read(s[..|s| - 1]) * 10 + DigitValue(s[|s| - 1])
  }

  /** Reading back what `Show` renders gives the number. */
  lemma {:induction false} ReadShow(n: nat)
    ensures Read(Show(n)) == n
    decreases n
  {
    var s := Show(n);
    if n < 10 {
      assert s[..|s| - 1] == [];
      assert DigitValue(DigitChar(n)) == n;
    } else {
      assert s[..|s| - 1] == Show(n / 10);
      assert DigitValue(s[|s| - 1]) == n % 10;
      ReadShow(n / 10);
    }
  }

  /** Distinct numbers render as distinct strings. */
  lemma ShowInjective(a: nat, b: nat)
    ensures Show(a) == Show(b) ==> a == b
  {
    ReadShow(a);
    ReadShow(b);
  }
}

=== FILE: Js.dfy ===
/**
 JavaScript values as the message validators see them: the result of
 `JSON.parse`, plus `undefined` for a property that is not there.
 Numbers are modelled as integers; every non-integer number behaves like a
 non-zero integer other than a message discriminant, so nothing the
 validators decide depends on the difference.
 */
module Js {

  datatype Value =
    | Undefined
    | Null
    | Bool(b: bool)
    | Num(n: int)
    | Str(s: string)
    | Arr(elems: seq<Value>)
    | Obj(props: map<string, Value>)

  /** JavaScript's `typeof` operator: null, arrays and objects are all "object". */
  function TypeOf(v: Value): string
  {
    match v
    case Undefined => "undefined"
    case Null => "object"
    case Bool(_) => "boolean"
    case Num(_) => "number"
    case Str(_) => "string"
    case Arr(_) => "object"
    case Obj(_) => "object"
  }

  /** JavaScript truthiness: the falsy values are undefined, null, false, 0 and "". */
  predicate Truthy(v: Value)
  {
    match v
    case Undefined => false
    case Null => false
    case Bool(b) => b
    case Num(n) => n != 0
    case Str(s) => s != ""
    case Arr(_) => true
    case Obj(_) => true
  }

  predicate Nullish(v: Value)
  {
    v.Undefined? || v.Null?
  }

  /** What a JavaScript `throw` carries: a TypeError from the runtime, a
      SyntaxError from `JSON.parse`, or an `Error` with a message. */
  datatype Error = TypeError | SyntaxError | Failed(message: string)

  /** The completion of a JavaScript call: a value, or a thrown error. */
  datatype Outcome<+T> = Ok(value: T) | Throw(error: Error)
  {
    predicate IsFailure()
    {
      Throw?
    }

    function PropagateFailure<U>(): Outcome<U>
      requires Throw?
    {
      Throw(error)
    }

    function Extract(): T
      requires Ok?
    {
      value
    }
  }

  /** The property names the validators and the hooks read. None of them is an array
      index, `length`, or a member any array, boolean, number, string or
      plain object inherits, so reading one of them from anything but an
      object that owns it gives `undefined`. */
  const FieldNames: set<string> := {
    "protocol", "roomProtocol", "roomId", "roomCredential", "clientCredential",
    "clientType", "clientName", "clientState", "readonly", "type", "echo",
    "roomChanges", "clientChanges", "key", "value", "action", "id", "data",
    "flush", "msg", "cookies"
  }

  /** `v.name` for a value that is neither null nor undefined. */
  function Prop(v: Value, name: string): Value
    requires name in FieldNames
    requires !Nullish(v)
  {
    if v.Obj? && name in v.props then v.props[name] else Undefined
  }

  /** `v.name`, which throws a TypeError when `v` is null or undefined. */
  function Get(v: Value, name: string): (r: Outcome<Value>)
    requires name in FieldNames
    ensures r.Throw? <==> Nullish(v)
    ensures r.Throw? ==> r.error == TypeError
    ensures r.Ok? ==> r.value == Prop(v, name)
  {
    if Nullish(v) then Throw(TypeError) else Ok(Prop(v, name))
  }
}

=== FILE: Messages.dfy ===
/**
 The wire messages of the room server and the validators that turn an
 untrusted parsed JSON value into a typed request or throw.

 The validators test JavaScript `typeof` and truthiness, not the declared
 TypeScript types, so the typed records keep the fields they copy as
 JavaScript values: an optional "string" field holds any falsy value or a
 string, and an optional "boolean" field holds null, undefined or a boolean.
 */
module Messages {

  import opened Js
  import opened Optional

  /** The generic protocol identifier a hello request must name. */
  const PROTOCOL := "websocket-room-server:1"

  /** The numeric discriminants of the message types, numbered in order of
      declaration from 0. */
  datatype MessageType =
    | HelloFailResp
    | HelloSuccessResp
    | ChangeRequest
    | ChangeNotification
    | ActionRequest
    | ActionResponse
    | CloseRequest
    | CloseResponse
  {
    function Code(): nat
    {
      match this
      case HelloFailResp => 0
      case HelloSuccessResp => 1
      case ChangeRequest => 2
      case ChangeNotification => 3
      case ActionRequest => 4
      case ActionResponse => 5
      case CloseRequest => 6
      case CloseResponse => 7
    }
  }

  /** The reverse mapping a numeric enum carries: the member with a given code. */
  function MessageTypeOf(code: int): (r: Option<MessageType>)
    ensures r.Some? <==> 0 <= code < 8
  {
    if code == 0 then Some(HelloFailResp)
    else if code == 1 then Some(HelloSuccessResp)
    else if code == 2 then Some(ChangeRequest)
    else if code == 3 then Some(ChangeNotification)
    else if code == 4 then Some(ActionRequest)
    else if code == 5 then Some(ActionResponse)
    else if code == 6 then Some(CloseRequest)
    else if code == 7 then Some(CloseResponse)
    else None
  }

  /** Each member's code maps back to that member, so no two share a code. */
  lemma MessageTypeCodesRoundTrip(t: MessageType)
    ensures MessageTypeOf(t.Code()) == Some(t)
  {
  }

  /** Every code in range maps to the member that carries it. */
  lemma MessageTypeOfRoundTrip(code: int)
    requires 0 <= code < 8
    ensures MessageTypeOf(code).value.Code() == code
  {
  }

  // Messages of the errors the validators throw.
  const INVALID_HELLO_REQ := "Invalid HelloReq"
  const INVALID_KVSTORE_TYPE := "Invalid KVStore (type)"
  const INVALID_KVSTORE_VALUE := "Invalid KVStore (value)"
  const INVALID_CHANGE_REQ := "Invalid ChangeReq"
  const INVALID_KVSETS_OBJECT := "Invalid KVSets (object)"
  const INVALID_KVSETS_ENTRY := "Invalid KVSets (entry)"
  const INVALID_ACTION_REQ := "Invalid ActionReq"
  const INVALID_CLOSE_REQ := "Invalid CloseReq"

  /** `x && typeof(x) !== 'string'` is false: `x` is falsy or a string. */
  predicate FalsyOrString(x: Value)
  {
    !Truthy(x) || x.Str?
  }

  /** `x !== null && x !== undefined && typeof(x) !== 'boolean'` is false. */
  predicate NullishOrBoolean(x: Value)
  {
    Nullish(x) || x.Bool?
  }

  /** `typeof(m.type) === 'number' && m.type === code`. */
  predicate HasType(m: Value, t: MessageType)
    requires !Nullish(m)
  {
    Prop(m, "type").Num? && Prop(m, "type").n == t.Code()
  }

  /* ---------------------------------------------------------------- KVStore */

  /** `validateKVStore` accepts every value whose `typeof` is "object" and
      whose enumerable own properties all hold strings: null (which has
      none), an array of strings, or an object of strings. */
  predicate IsKVStore(m: Value)
  {
    match m
    case Null => true
    case Arr(es) => forall i :: 0 <= i < |es| ==> es[i].Str?
    case Obj(ps) => forall k :: k in ps ==> ps[k].Str?
    case _ => false
  }

  /** Returns its input unchanged when it is accepted. A `for..in` key is
      always a string, so the key test never fails. */
  function ValidateKVStore(m: Value): (r: Outcome<Value>)
    ensures r.Ok? <==> IsKVStore(m)
    ensures r.Ok? ==> r.value == m
    ensures TypeOf(m) != "object" ==> r == Throw(Failed(INVALID_KVSTORE_TYPE))
    ensures TypeOf(m) == "object" && !IsKVStore(m) ==> r == Throw(Failed(INVALID_KVSTORE_VALUE))
  {
    if TypeOf(m) != "object" then Throw(Failed(INVALID_KVSTORE_TYPE))
    else
      var allStrings :=
        match m
        case Arr(es) => forall i :: 0 <= i < |es| ==> es[i].Str?
        case Obj(ps) => forall k :: k in ps ==> ps[k].Str?
        case _ => true;
      if allStrings then Ok(m) else Throw(Failed(INVALID_KVSTORE_VALUE))
  }

  /** A string-to-string map as a JSON object. */
  function EncodeKVStore(kv: map<string, string>): Value
  {
    Obj(map k | k in kv :: Str(kv[k]))
  }

  /** Reads an accepted object store back as a string-to-string map. */
  function DecodeKVStore(v: Value): (kv: map<string, string>)
    requires v.Obj? && IsKVStore(v)
    ensures kv.Keys == v.props.Keys
    ensures forall k :: k in kv ==> v.props[k] == Str(kv[k])
  {
    map k | k in v.props :: v.props[k].s
  }

  /** Encoding a store and validating it gives it back unchanged. */
  lemma KVStoreRoundTrip(kv: map<string, string>)
    ensures ValidateKVStore(EncodeKVStore(kv)) == Ok(EncodeKVStore(kv))
    ensures DecodeKVStore(EncodeKVStore(kv)) == kv
  {
  }

  /* -------------------------------------------------------------- HelloReq */

  /** A validated hello request. The four optional strings and `readonly`
      are copied from the input as they are. */
  datatype HelloReq = HelloReq(
    protocol: string,
    roomProtocol: string,
    roomId: string,
    roomCredential: Value,
    clientCredential: Value,
    clientType: Value,
    clientName: Value,
    clientState: Value,
    readonly: Value)

  /** The field tests of `validateHelloReq`, short of the client state. */
  predicate HelloFieldsOk(m: Value)
    requires !Nullish(m)
  {
    && Prop(m, "protocol").Str?
    && Prop(m, "roomProtocol").Str?
    && Prop(m, "roomId").Str?
    && FalsyOrString(Prop(m, "roomCredential"))
    && FalsyOrString(Prop(m, "clientCredential"))
    && FalsyOrString(Prop(m, "clientType"))
    && FalsyOrString(Prop(m, "clientName"))
    && NullishOrBoolean(Prop(m, "readonly"))
  }

  function ValidateHelloReq(m: Value): (r: Outcome<HelloReq>)
    ensures r.Ok? <==>
      && TypeOf(m) == "object" && !m.Null?
      && HelloFieldsOk(m)
      && IsKVStore(Prop(m, "clientState"))
    ensures r.Ok? ==> m.Obj?
    ensures r.Ok? ==>
      && r.value.protocol == Prop(m, "protocol").s
      && r.value.roomProtocol == Prop(m, "roomProtocol").s
      && r.value.roomId == Prop(m, "roomId").s
      && r.value.roomCredential == Prop(m, "roomCredential")
      && r.value.clientCredential == Prop(m, "clientCredential")
      && r.value.clientType == Prop(m, "clientType")
      && r.value.clientName == Prop(m, "clientName")
      && r.value.clientState == Prop(m, "clientState")
      && r.value.readonly == Prop(m, "readonly")
    ensures TypeOf(m) != "object" ==> r == Throw(Failed(INVALID_HELLO_REQ))
    ensures m.Null? ==> r == Throw(TypeError)
    ensures TypeOf(m) == "object" && !m.Null? && !HelloFieldsOk(m) ==> r == Throw(Failed(INVALID_HELLO_REQ))
    ensures TypeOf(m) == "object" && !m.Null? && HelloFieldsOk(m) && !r.Ok? ==>
      r == ValidateKVStore(Prop(m, "clientState")).PropagateFailure()
  {
    if TypeOf(m) != "object" then Throw(Failed(INVALID_HELLO_REQ))
    else
      var protocol :- Get(m, "protocol");
      if !HelloFieldsOk(m) then Throw(Failed(INVALID_HELLO_REQ))
      else
        var clientState :- ValidateKVStore(Prop(m, "clientState"));
        Ok(HelloReq(
          protocol.s,
          Prop(m, "roomProtocol").s,
          Prop(m, "roomId").s,
          Prop(m, "roomCredential"),
          Prop(m, "clientCredential"),
          Prop(m, "clientType"),
          Prop(m, "clientName"),
          clientState,
          Prop(m, "readonly")))
  }

  /** An optional string field holding a truthy non-string rejects the request. */
  lemma HelloRejectsTruthyNonString(m: Value, name: string)
    requires name in {"roomCredential", "clientCredential", "clientType", "clientName"}
    requires m.Obj? && name in m.props
    requires Truthy(m.props[name]) && !m.props[name].Str?
    ensures ValidateHelloReq(m) == Throw(Failed(INVALID_HELLO_REQ))
  {
  }

  /** Setting one optional string field of an accepted request to any falsy
      value, of whatever type, keeps the request accepted and changes only
      that field of the result, which holds the value as it is. */
  lemma HelloAcceptsFalsyOptional(m: Value, name: string, x: Value)
    requires name in {"roomCredential", "clientCredential", "clientType", "clientName"}
    requires ValidateHelloReq(m).Ok?
    requires !Truthy(x)
    ensures ValidateHelloReq(Obj(m.props[name := x])).Ok?
    ensures var r := ValidateHelloReq(m).value;
      var r' := ValidateHelloReq(Obj(m.props[name := x])).value;
      && (name == "roomCredential" ==> r' == r.(roomCredential := x))
      && (name == "clientCredential" ==> r' == r.(clientCredential := x))
      && (name == "clientType" ==> r' == r.(clientType := x))
      && (name == "clientName" ==> r' == r.(clientName := x))
  {
    var m' := Obj(m.props[name := x]);
    SetPropLocal(m, name, x);
    assert HelloFieldsOk(m');
  }

  /** Setting one property changes what reading that property gives and
      nothing else. */
  lemma SetPropLocal(m: Value, name: string, x: Value)
    requires m.Obj? && name in FieldNames
    ensures Prop(Obj(m.props[name := x]), name) == x
    ensures forall f :: f in FieldNames && f != name ==> Prop(Obj(m.props[name := x]), f) == Prop(m, f)
  {
  }

  /** The names `validateHelloReq` reads. */
  const HelloFields: set<string> := {
    "protocol", "roomProtocol", "roomId", "roomCredential", "clientCredential",
    "clientType", "clientName", "clientState", "readonly"
  }

  /** Two objects that agree on the fields the validator reads validate alike. */
  lemma HelloReadsOnlyItsFields(m: Value, m': Value)
    requires m.Obj? && m'.Obj?
    requires forall f :: f in HelloFields ==> Prop(m, f) == Prop(m', f)
    ensures ValidateHelloReq(m) == ValidateHelloReq(m')
  {
    assert HelloFieldsOk(m) <==> HelloFieldsOk(m');
  }

  /** `readonly` is not defaulted by the validator: an absent flag stays undefined. */
  lemma HelloReadonlyNotDefaulted(m: Value, r: HelloReq)
    requires ValidateHelloReq(m) == Ok(r)
    requires "readonly" !in m.props
    ensures r.readonly == Undefined
  {
  }

  /** A client state `validateKVStore` rejects makes the hello request fail
      with the client state's error; an absent one is undefined and fails. */
  lemma HelloFailsWithClientState(m: Value)
    requires m.Obj? && HelloFieldsOk(m)
    requires ValidateKVStore(Prop(m, "clientState")).Throw?
    ensures ValidateHelloReq(m).Throw?
    ensures ValidateHelloReq(m).error == ValidateKVStore(Prop(m, "clientState")).error
    ensures "clientState" !in m.props ==> ValidateHelloReq(m) == Throw(Failed(INVALID_KVSTORE_TYPE))
  {
  }

  /** The requests the validator can return: optional strings that are
      falsy or strings, a readonly flag that is null, undefined or a
      boolean, and a client state `validateKVStore` accepts. */
  predicate HelloWellFormed(r: HelloReq)
  {
    && FalsyOrString(r.roomCredential)
    && FalsyOrString(r.clientCredential)
    && FalsyOrString(r.clientType)
    && FalsyOrString(r.clientName)
    && NullishOrBoolean(r.readonly)
    && IsKVStore(r.clientState)
  }

  /** A hello request as the JSON object a client sends. */
  function EncodeHelloReq(r: HelloReq): Value
  {
    Obj(map[
      "protocol" := Str(r.protocol),
      "roomProtocol" := Str(r.roomProtocol),
      "roomId" := Str(r.roomId),
      "roomCredential" := r.roomCredential,
      "clientCredential" := r.clientCredential,
      "clientType" := r.clientType,
      "clientName" := r.clientName,
      "clientState" := r.clientState,
      "readonly" := r.readonly])
  }

  /** A request sent as an object validates back to itself exactly when it
      is well formed. */
  lemma HelloReqRoundTrip(r: HelloReq)
    ensures HelloWellFormed(r) <==> ValidateHelloReq(EncodeHelloReq(r)) == Ok(r)
  {
    var m := EncodeHelloReq(r);
    assert Prop(m, "protocol") == Str(r.protocol);
    assert Prop(m, "roomProtocol") == Str(r.roomProtocol);
    assert Prop(m, "roomId") == Str(r.roomId);
    assert Prop(m, "roomCredential") == r.roomCredential;
    assert Prop(m, "clientCredential") == r.clientCredential;
    assert Prop(m, "clientType") == r.clientType;
    assert Prop(m, "clientName") == r.clientName;
    assert Prop(m, "clientState") == r.clientState;
    assert Prop(m, "readonly") == r.readonly;
  }

  /** What the validator returns is well formed, so validating it again, sent
      as an object, gives it back. */
  lemma HelloReqIdempotent(m: Value)
    requires ValidateHelloReq(m).Ok?
    ensures HelloWellFormed(ValidateHelloReq(m).value)
    ensures ValidateHelloReq(EncodeHelloReq(ValidateHelloReq(m).value)) == ValidateHelloReq(m)
  {
    HelloReqRoundTrip(ValidateHelloReq(m).value);
  }

  /* ----------------------------------------------------------------- KVSets */

  /** One change unit; `value` is copied as it is (any falsy value, or a string). */
  datatype KVSet = KVSet(key: string, value: Value)

  /** An array element `validateKVSets` accepts. */
  predicate EntryOk(el: Value)
  {
    !Nullish(el) && Prop(el, "key").Str? && FalsyOrString(Prop(el, "value"))
  }

  /** What `{key: s.key, value: s.value}` copies out of an accepted element. */
  function EntryOf(el: Value): KVSet
    requires EntryOk(el)
  {
    KVSet(Prop(el, "key").s, Prop(el, "value"))
  }

  /** The error the loop throws at a rejected element: reading `s.key` of a
      null or undefined element throws a TypeError. */
  function EntryError(el: Value): Error
  {
    if Nullish(el) then TypeError else Failed(INVALID_KVSETS_ENTRY)
  }

  /** The `for..of` loop of `validateKVSets`, element by element from the front. */
  function ValidateEntries(es: seq<Value>): (r: Outcome<seq<KVSet>>)
    ensures r.Ok? <==> forall i :: 0 <= i < |es| ==> EntryOk(es[i])
    ensures r.Ok? ==> |r.value| == |es|
    ensures r.Ok? ==> forall i :: 0 <= i < |es| ==> EntryOk(es[i]) && r.value[i] == EntryOf(es[i])
    ensures r.Throw? ==> exists i :: 0 <= i < |es| && !EntryOk(es[i]) && r.error == EntryError(es[i]) &&
                                     (forall j :: 0 <= j < i ==> EntryOk(es[j]))
  {
    if |es| == 0 then Ok([])
    else
      var el := es[0];
      var key :- Get(el, "key");
      if !key.Str? || !FalsyOrString(Prop(el, "value")) then Throw(Failed(INVALID_KVSETS_ENTRY))
      else
        var rest :- ValidateEntries(es[1..]);
        Ok([KVSet(key.s, Prop(el, "value"))] + rest)
  }

  /** Accepts only arrays; on success the entries keep the array's length and order. */
  function ValidateKVSets(m: Value): (r: Outcome<seq<KVSet>>)
    ensures !m.Arr? ==> r == Throw(Failed(INVALID_KVSETS_OBJECT))
    ensures r.Ok? <==> m.Arr? && forall i :: 0 <= i < |m.elems| ==> EntryOk(m.elems[i])
    ensures r.Ok? ==> |r.value| == |m.elems|
    ensures r.Ok? ==> forall i :: 0 <= i < |m.elems| ==> EntryOk(m.elems[i]) && r.value[i] == EntryOf(m.elems[i])
    ensures r.Throw? && m.Arr? ==> r.error == TypeError || r.error == Failed(INVALID_KVSETS_ENTRY)
  {
    if !m.Arr? then Throw(Failed(INVALID_KVSETS_OBJECT)) else ValidateEntries(m.elems)
  }

  /** The object `{key, value}` the validator builds for one entry. */
  function EncodeKVSet(kv: KVSet): Value
  {
    Obj(map["key" := Str(kv.key), "value" := kv.value])
  }

  function EncodeKVSets(kvs: seq<KVSet>): (v: Value)
    ensures v.Arr? && |v.elems| == |kvs|
    ensures forall i :: 0 <= i < |kvs| ==> v.elems[i] == EncodeKVSet(kvs[i])
  {
    Arr(seq(|kvs|, i requires 0 <= i < |kvs| => EncodeKVSet(kvs[i])))
  }

  /** Entries whose values are falsy or strings survive encoding and validation. */
  lemma KVSetsRoundTrip(kvs: seq<KVSet>)
    requires forall i :: 0 <= i < |kvs| ==> FalsyOrString(kvs[i].value)
    ensures ValidateKVSets(EncodeKVSets(kvs)) == Ok(kvs)
  {
    var v := EncodeKVSets(kvs);
    forall i | 0 <= i < |kvs|
      ensures EntryOk(v.elems[i]) && EntryOf(v.elems[i]) == kvs[i]
    {
      assert v.elems[i] == EncodeKVSet(kvs[i]);
    }
    var r := ValidateKVSets(v);
    assert r.Ok? && |r.value| == |kvs|;
    assert forall i :: 0 <= i < |kvs| ==> r.value[i] == kvs[i];
    assert r.value == kvs;
  }

  /** Validating the validator's own output succeeds and gives the same entries. */
  lemma KVSetsIdempotent(m: Value, r: seq<KVSet>)
    requires ValidateKVSets(m) == Ok(r)
    ensures ValidateKVSets(EncodeKVSets(r)) == Ok(r)
  {
    forall i | 0 <= i < |r|
      ensures FalsyOrString(r[i].value)
    {
      assert EntryOk(m.elems[i]);
    }
    KVSetsRoundTrip(r);
  }

  /* ------------------------------------------------------------- ChangeReq */

  /** A validated change request; `None` is the `undefined` the validator
      stores when it does not validate a list. */
  datatype ChangeReq = ChangeReq(
    echo: Value,
    roomChanges: Option<seq<KVSet>>,
    clientChanges: Option<seq<KVSet>>)

  /** The header tests shared by the change-request validators. */
  predicate ChangeHeaderOk(m: Value)
  {
    TypeOf(m) == "object" && !m.Null? && HasType(m, ChangeRequest) && NullishOrBoolean(Prop(m, "echo"))
  }

  /** As written: both lists are validated, and kept, only when
      `roomChanges` is truthy; `clientChanges` is then validated even when
      it is absent. */
  function ValidateChangeReq(m: Value): (r: Outcome<ChangeReq>)
    ensures TypeOf(m) != "object" ==> r == Throw(Failed(INVALID_CHANGE_REQ))
    ensures m.Null? ==> r == Throw(TypeError)
    ensures r.Ok? <==>
      && ChangeHeaderOk(m)
      && (Truthy(Prop(m, "roomChanges")) ==>
            ValidateKVSets(Prop(m, "roomChanges")).Ok? && ValidateKVSets(Prop(m, "clientChanges")).Ok?)
    ensures r.Ok? ==> r.value.echo == Prop(m, "echo")
    ensures r.Ok? && !Truthy(Prop(m, "roomChanges")) ==> r.value.roomChanges == None && r.value.clientChanges == None
    ensures r.Ok? && Truthy(Prop(m, "roomChanges")) ==>
      && r.value.roomChanges == Some(ValidateKVSets(Prop(m, "roomChanges")).value)
      && r.value.clientChanges == Some(ValidateKVSets(Prop(m, "clientChanges")).value)
    ensures !m.Null? && !ChangeHeaderOk(m) ==> r == Throw(Failed(INVALID_CHANGE_REQ))
    ensures ChangeHeaderOk(m) && Truthy(Prop(m, "roomChanges")) && ValidateKVSets(Prop(m, "roomChanges")).Throw? ==>
      r == Throw(ValidateKVSets(Prop(m, "roomChanges")).error)
    ensures ChangeHeaderOk(m) && Truthy(Prop(m, "roomChanges")) && ValidateKVSets(Prop(m, "roomChanges")).Ok?
            && ValidateKVSets(Prop(m, "clientChanges")).Throw? ==>
      r == Throw(ValidateKVSets(Prop(m, "clientChanges")).error)
  {
    if TypeOf(m) != "object" then Throw(Failed(INVALID_CHANGE_REQ))
    else
      var t :- Get(m, "type");
      if !(t.Num? && t.n == ChangeRequest.Code()) || !NullishOrBoolean(Prop(m, "echo")) then
        Throw(Failed(INVALID_CHANGE_REQ))
      else if !Truthy(Prop(m, "roomChanges")) then
        Ok(ChangeReq(Prop(m, "echo"), None, None))
      else
        var room :- ValidateKVSets(Prop(m, "roomChanges"));
        var client :- ValidateKVSets(Prop(m, "clientChanges"));
        Ok(ChangeReq(Prop(m, "echo"), Some(room), Some(client)))
  }

  /** A change request carrying only room changes. */
  const RoomOnlyChange: Value :=
    Obj(map["type" := Num(2), "roomChanges" := Arr([Obj(map["key" := Str("x"), "value" := Str("1")])])])

  /** A change request carrying only client changes. */
  const ClientOnlyChange: Value :=
    Obj(map["type" := Num(2), "clientChanges" := Arr([Obj(map["key" := Str("x"), "value" := Str("1")])])])

  /** As written, room changes without client changes are rejected, and
      client changes without room changes are dropped. */
  lemma ChangeReqGuardCounterexample()
    ensures ValidateChangeReq(RoomOnlyChange) == Throw(Failed(INVALID_KVSETS_OBJECT))
    ensures ValidateChangeReq(ClientOnlyChange) == Ok(ChangeReq(Undefined, None, None))
  {
  }

  /** Corrected: each list is validated and kept exactly when it is truthy. */
  function ValidateChangeReqIntended(m: Value): (r: Outcome<ChangeReq>)
    ensures TypeOf(m) != "object" ==> r == Throw(Failed(INVALID_CHANGE_REQ))
    ensures m.Null? ==> r == Throw(TypeError)
    ensures r.Ok? <==>
      && ChangeHeaderOk(m)
      && (Truthy(Prop(m, "roomChanges")) ==> ValidateKVSets(Prop(m, "roomChanges")).Ok?)
      && (Truthy(Prop(m, "clientChanges")) ==> ValidateKVSets(Prop(m, "clientChanges")).Ok?)
    ensures r.Ok? ==> r.value.echo == Prop(m, "echo")
    ensures r.Ok? ==> (r.value.roomChanges.Some? <==> Truthy(Prop(m, "roomChanges")))
    ensures r.Ok? ==> (r.value.clientChanges.Some? <==> Truthy(Prop(m, "clientChanges")))
    ensures r.Ok? && r.value.roomChanges.Some? ==>
      r.value.roomChanges.value == ValidateKVSets(Prop(m, "roomChanges")).value
    ensures r.Ok? && r.value.clientChanges.Some? ==>
      r.value.clientChanges.value == ValidateKVSets(Prop(m, "clientChanges")).value
  {
    if TypeOf(m) != "object" then Throw(Failed(INVALID_CHANGE_REQ))
    else
      var t :- Get(m, "type");
      if !(t.Num? && t.n == ChangeRequest.Code()) || !NullishOrBoolean(Prop(m, "echo")) then
        Throw(Failed(INVALID_CHANGE_REQ))
      else
        var room :- ValidateOptionalKVSets(Prop(m, "roomChanges"));
        var client :- ValidateOptionalKVSets(Prop(m, "clientChanges"));
        Ok(ChangeReq(Prop(m, "echo"), room, client))
  }

  /** `m ? validateKVSets(m) : undefined`. */
  function ValidateOptionalKVSets(m: Value): (r: Outcome<Option<seq<KVSet>>>)
    ensures !Truthy(m) ==> r == Ok(None)
    ensures Truthy(m) ==> (r.Ok? <==> ValidateKVSets(m).Ok?)
    ensures Truthy(m) && r.Ok? ==> r.value == Some(ValidateKVSets(m).value)
  {
    if Truthy(m) then
      var kvs :- ValidateKVSets(m);
      Ok(Some(kvs))
    else Ok(None)
  }

  /** The corrected validator accepts both one-sided requests and keeps what they carry. */
  lemma ChangeReqIntendedKeepsOneSidedChanges()
    ensures ValidateChangeReqIntended(RoomOnlyChange) == Ok(ChangeReq(Undefined, Some([KVSet("x", Str("1"))]), None))
    ensures ValidateChangeReqIntended(ClientOnlyChange) == Ok(ChangeReq(Undefined, None, Some([KVSet("x", Str("1"))])))
  {
    var entry := Obj(map["key" := Str("x"), "value" := Str("1")]);
    assert Prop(RoomOnlyChange, "clientChanges") == Undefined;
    assert Prop(ClientOnlyChange, "roomChanges") == Undefined;
    assert Prop(RoomOnlyChange, "roomChanges") == Arr([entry]);
    assert Prop(ClientOnlyChange, "clientChanges") == Arr([entry]);
    assert EntryOk(entry) && EntryOf(entry) == KVSet("x", Str("1"));
    var kvs := ValidateKVSets(Arr([entry]));
    assert kvs.Ok? && |kvs.value| == 1 && kvs.value[0] == KVSet("x", Str("1"));
    assert kvs.value == [KVSet("x", Str("1"))];
  }

  /** Whenever both lists are supplied, the two validators agree. */
  lemma ChangeReqValidatorsAgreeOnBothLists(m: Value)
    requires m.Obj? && Truthy(Prop(m, "roomChanges")) && Truthy(Prop(m, "clientChanges"))
    ensures ValidateChangeReq(m) == ValidateChangeReqIntended(m)
  {
  }

  /* ------------------------------------------------------------- ActionReq */

  /** A validated action request; `id` and `data` are copied as they are. */
  datatype ActionReq = ActionReq(action: string, id: Value, data: Value)

  function ValidateActionReq(m: Value): (r: Outcome<ActionReq>)
    ensures TypeOf(m) != "object" ==> r == Throw(Failed(INVALID_ACTION_REQ))
    ensures m.Null? ==> r == Throw(TypeError)
    ensures r.Ok? <==>
      && TypeOf(m) == "object" && !m.Null?
      && HasType(m, ActionRequest)
      && Prop(m, "action").Str?
      && FalsyOrString(Prop(m, "id"))
      && FalsyOrString(Prop(m, "data"))
    ensures r.Ok? ==>
      && r.value.action == Prop(m, "action").s
      && r.value.id == Prop(m, "id")
      && r.value.data == Prop(m, "data")
    ensures r.Throw? && !m.Null? ==> r.error == Failed(INVALID_ACTION_REQ)
  {
    if TypeOf(m) != "object" then Throw(Failed(INVALID_ACTION_REQ))
    else
      var t :- Get(m, "type");
      if || !(t.Num? && t.n == ActionRequest.Code())
         || !Prop(m, "action").Str?
         || !FalsyOrString(Prop(m, "id"))
         || !FalsyOrString(Prop(m, "data"))
      then Throw(Failed(INVALID_ACTION_REQ))
      else Ok(ActionReq(Prop(m, "action").s, Prop(m, "id"), Prop(m, "data")))
  }

  /** An action request as the JSON object a client sends. */
  function EncodeActionReq(r: ActionReq): Value
  {
    Obj(map["type" := Num(ActionRequest.Code()), "action" := Str(r.action), "id" := r.id, "data" := r.data])
  }

  /** An action request sent as an object validates back to itself exactly
      when its id and data are falsy or strings. */
  lemma ActionReqRoundTrip(r: ActionReq)
    ensures FalsyOrString(r.id) && FalsyOrString(r.data) <==> ValidateActionReq(EncodeActionReq(r)) == Ok(r)
  {
    var m := EncodeActionReq(r);
    assert Prop(m, "type") == Num(ActionRequest.Code());
    assert Prop(m, "action") == Str(r.action);
    assert Prop(m, "id") == r.id;
    assert Prop(m, "data") == r.data;
  }

  /* -------------------------------------------------------------- CloseReq */

  /** A validated close request; `flush` and `msg` are copied as they are. */
  datatype CloseReq = CloseReq(flush: Value, msg: Value)

  function ValidateCloseReq(m: Value): (r: Outcome<CloseReq>)
    ensures TypeOf(m) != "object" ==> r == Throw(Failed(INVALID_CLOSE_REQ))
    ensures m.Null? ==> r == Throw(TypeError)
    ensures r.Ok? <==>
      && TypeOf(m) == "object" && !m.Null?
      && HasType(m, CloseRequest)
      && NullishOrBoolean(Prop(m, "flush"))
      && FalsyOrString(Prop(m, "msg"))
    ensures r.Ok? ==> r.value.flush == Prop(m, "flush") && r.value.msg == Prop(m, "msg")
    ensures r.Throw? && !m.Null? ==> r.error == Failed(INVALID_CLOSE_REQ)
  {
    if TypeOf(m) != "object" then Throw(Failed(INVALID_CLOSE_REQ))
    else
      var t :- Get(m, "type");
      if || !(t.Num? && t.n == CloseRequest.Code())
         || !NullishOrBoolean(Prop(m, "flush"))
         || !FalsyOrString(Prop(m, "msg"))
      then Throw(Failed(INVALID_CLOSE_REQ))
      else Ok(CloseReq(Prop(m, "flush"), Prop(m, "msg")))
  }

  /** A close request as the JSON object a client sends. */
  function EncodeCloseReq(r: CloseReq): Value
  {
    Obj(map["type" := Num(CloseRequest.Code()), "flush" := r.flush, "msg" := r.msg])
  }

  /** A close request sent as an object validates back to itself exactly
      when its flush is null, undefined or a boolean and its msg is falsy or
      a string. */
  lemma CloseReqRoundTrip(r: CloseReq)
    ensures NullishOrBoolean(r.flush) && FalsyOrString(r.msg) <==> ValidateCloseReq(EncodeCloseReq(r)) == Ok(r)
  {
    var m := EncodeCloseReq(r);
    assert Prop(m, "type") == Num(CloseRequest.Code());
    assert Prop(m, "flush") == r.flush;
    assert Prop(m, "msg") == r.msg;
  }

  /** The discriminant decides which validator can accept a message: no
      value passes two of them. */
  lemma DiscriminantsExclusive(m: Value)
    ensures !(ValidateChangeReq(m).Ok? && ValidateActionReq(m).Ok?)
    ensures !(ValidateChangeReq(m).Ok? && ValidateCloseReq(m).Ok?)
    ensures !(ValidateActionReq(m).Ok? && ValidateCloseReq(m).Ok?)
  {
  }
}

=== FILE: Optional.dfy ===
/** Optional values: a record field that may be `undefined`. */
module Optional {

  datatype Option<+T> = None | Some(value: T)
}

=== FILE: Server.dfy ===
/**
 The room server's connection and room state machine, as an immutable
 record stepped by transport events.

 The server holds the rooms by id and a counter that numbers accepted
 connections; connection number `n` has client id `connection:n`. The
 optional hello hook is asynchronous in the server; here its answer for the
 request at hand is part of the message event, and whether a hook is
 configured is part of the state. What the server asks of the transport
 (close a socket, terminate it, ping it) and the exceptions that escape an
 event handler are returned as effects.
 */
module RoomServer {

  import opened Js
  import opened Optional
  import opened Messages
  import Decimal

  /** Close code 1002, "protocol error" (section 7.4.1 of RFC 6455): every
      close the server starts uses it. */
  const PROTOCOL_ERROR := 1002

  const HELLO_TIMEOUT_REASON := "no hello received in time"

  /** The reason the catch block gives. It is a plain quoted string, not a
      template literal, so the error's message is not part of it. */
  const INTERNAL_ERROR_REASON := "internal error: ${err.message}"

  /** The reason given for a wrong generic protocol: it names the protocol
      the client sent and then the expected one, and the closing parenthesis
      is missing. */
  function WrongProtocolReason(protocol: string): (r: string)
    ensures |r| == |protocol| + 20 + |PROTOCOL|
    ensures r[16..16 + |protocol|] == protocol
    ensures r[16 + |protocol|..] == " vs " + PROTOCOL
    ensures r[|r| - 1] != ')'
  {
    "wrong protocol (" + protocol + " vs " + PROTOCOL
  }

  /** The names a plain JavaScript object inherits from Object.prototype.
      The rooms are held in a plain object, so looking one of these up as a
      room id finds something truthy that is not a room. */
  const INHERITED_NAMES: set<string> := {
    "__proto__", "constructor", "hasOwnProperty", "isPrototypeOf",
    "propertyIsEnumerable", "toLocaleString", "toString", "valueOf",
    "__defineGetter__", "__defineSetter__", "__lookupGetter__", "__lookupSetter__"
  }

  datatype Status = WaitingForHello | ProcessingHello | Active | Flushing | Closed

  /** The client id of the `n`th accepted connection. */
  function ClientId(n: nat): (r: string)
    ensures |r| > 11 && r[..11] == "connection:" && r[11..] == Decimal.Show(n)
  {
    "connection:" + Decimal.Show(n)
  }

  /** Per-connection state: the status, whether the hello timer is armed,
      the room joined, the heartbeat flag, and whether the transport still
      holds the socket (it stops at the socket's close event). */
  datatype Conn = Conn(status: Status, timerArmed: bool, roomId: Option<string>, isAlive: bool, open: bool)

  /** A room member as registered by the hello path. */
  datatype RoomClient = RoomClient(readonly: bool, clientType: Value, clientName: Value, clientState: Value)

  datatype Room = Room(id: string, clients: map<string, RoomClient>, state: map<string, string>)

  datatype Server = Server(rooms: map<string, Room>, counter: nat, conns: map<nat, Conn>, hasHelloHook: bool)

  /** The hello hook's answer: accept with the client state and writability
      to register, reject by throwing an error object, or reject with null or
      undefined (`throw undefined`, `Promise.reject()`). */
  datatype HookReply = Accept(clientState: Value, readonly: bool) | Reject(error: Error) | RejectNullish

  /** A message as it arrives: JSON text that parses to a value, or not. */
  datatype Payload = Parsed(v: Value) | Unparseable

  datatype Event =
    | Connect
    | Message(conn: nat, payload: Payload, reply: HookReply)
    | HelloTimeout(conn: nat)
    | HeartbeatTick
    | Pong(conn: nat)
    | SocketClosed(conn: nat)
    | Disconnect(conn: nat)

  datatype Effect =
    | Close(conn: nat, code: int, reason: string)
    | Terminate(conn: nat)
    | Ping(conn: nat)
    | Uncaught(conn: nat, error: Error)

  datatype Transition = Transition(server: Server, effects: set<Effect>)

  /** A fresh server: no rooms, no connections, and the counter at 0. */
  function Init(hasHelloHook: bool): (s: Server)
    ensures s.rooms == map[] && s.conns == map[] && s.counter == 0 && s.hasHelloHook == hasHelloHook
    ensures Valid(s)
  {
    Server(map[], 0, map[], hasHelloHook)
  }

  /** The handlers a connection registers, dispatched on the event. Only
      an accepted connection advances the counter, and every other event
      acts on its own connection alone; the heartbeat acts on all of them. */
  function Step(s: Server, e: Event): (t: Transition)
    ensures t.server.counter == if e.Connect? then s.counter + 1 else s.counter
    ensures t.server.hasHelloHook == s.hasHelloHook
    ensures !e.Connect? ==> t.server.conns.Keys == s.conns.Keys
    ensures e.Connect? ==> t.effects == {}
    ensures !e.Connect? && !e.HeartbeatTick? ==>
      && (forall x :: x in t.effects ==> x.conn == e.conn)
      && (forall m :: m in s.conns && m != e.conn ==> t.server.conns[m] == s.conns[m])
  {
    match e
    case Connect => Accept(s)
    case Message(n, payload, reply) => OnMessage(s, n, payload, reply)
    case HelloTimeout(n) => OnHelloTimeout(s, n)
    case HeartbeatTick => Tick(s)
    case Pong(n) => OnPong(s, n)
    case SocketClosed(n) => OnSocketClosed(s, n)
    case Disconnect(n) => OnDisconnect(s, n)
  }

  /** A new connection takes the next counter value, waits for its hello
      with the timer armed, and starts alive. */
  function Accept(s: Server): (t: Transition)
    ensures t.server.counter == s.counter + 1
    ensures t.server.conns.Keys == s.conns.Keys + {s.counter + 1}
    ensures t.server.conns[s.counter + 1] == Conn(WaitingForHello, true, None, true, true)
    ensures forall m :: m in s.conns && m != s.counter + 1 ==> t.server.conns[m] == s.conns[m]
    ensures t.server.rooms == s.rooms && t.server.hasHelloHook == s.hasHelloHook
    ensures t.effects == {}
  {
    var n := s.counter + 1;
    Transition(s.(counter := n, conns := s.conns[n := Conn(WaitingForHello, true, None, true, true)]), {})
  }

  /** `closeSocket`: clear the hello timer and close with a protocol error. */
  function CloseSocket(s: Server, n: nat, reason: string): (t: Transition)
    requires n in s.conns
    ensures t.effects == {Close(n, PROTOCOL_ERROR, reason)}
    ensures t.server.rooms == s.rooms && t.server.counter == s.counter && t.server.hasHelloHook == s.hasHelloHook
    ensures t.server.conns.Keys == s.conns.Keys
    ensures !t.server.conns[n].timerArmed && t.server.conns[n].(timerArmed := s.conns[n].timerArmed) == s.conns[n]
    ensures forall m :: m in s.conns && m != n ==> t.server.conns[m] == s.conns[m]
  {
    Transition(s.(conns := s.conns[n := s.conns[n].(timerArmed := false)]), {Close(n, PROTOCOL_ERROR, reason)})
  }

  /** Only a connection still waiting for its hello acts on a message; in
      every other status the handler does nothing. */
  function OnMessage(s: Server, n: nat, payload: Payload, reply: HookReply): (t: Transition)
    ensures (n !in s.conns || !s.conns[n].open || s.conns[n].status != WaitingForHello) ==> t == Transition(s, {})
    ensures t.server.counter == s.counter && t.server.hasHelloHook == s.hasHelloHook
    ensures t.server.conns.Keys == s.conns.Keys
    ensures forall m :: m in s.conns && m != n ==> t.server.conns[m] == s.conns[m]
    ensures s.rooms.Keys <= t.server.rooms.Keys
  {
    if n !in s.conns || !s.conns[n].open || s.conns[n].status != WaitingForHello then Transition(s, {})
    else
      match Decide(s.hasHelloHook, payload, reply)
      case Refuse(reason) => CloseSocket(s, n, reason)
      case Admit(req, clientState, readonly) => Register(s, n, req, clientState, readonly)
      case Escape(err) => Transition(s, {Uncaught(n, err)})
  }

  /** The outcome of the hello path short of touching the state: refuse with
      a close reason, or admit with the client state and writability the hook
      (or the default) settled on. */
  datatype Decision =
    | Refuse(reason: string)
    | Admit(req: HelloReq, clientState: Value, readonly: bool)
    | Escape(error: Error)

  function Decide(hasHook: bool, payload: Payload, reply: HookReply): (d: Decision)
    ensures d.Admit? <==>
      && payload.Parsed?
      && ValidateHelloReq(payload.v).Ok?
      && ValidateHelloReq(payload.v).value.protocol == PROTOCOL
      && (hasHook ==> reply.Accept?)
    ensures d.Admit? ==> d.req == ValidateHelloReq(payload.v).value
    ensures d.Admit? && !hasHook ==> d.clientState == d.req.clientState && d.readonly == Truthy(d.req.readonly)
    ensures d.Admit? && hasHook ==> d.clientState == reply.clientState && d.readonly == reply.readonly
    ensures d.Refuse? && payload.Parsed? && ValidateHelloReq(payload.v).Ok?
            && ValidateHelloReq(payload.v).value.protocol != PROTOCOL ==>
      d.reason == WrongProtocolReason(ValidateHelloReq(payload.v).value.protocol)
    ensures d.Refuse? && !(payload.Parsed? && ValidateHelloReq(payload.v).Ok?
            && ValidateHelloReq(payload.v).value.protocol != PROTOCOL) ==>
      d.reason == INTERNAL_ERROR_REASON
    ensures d.Escape? <==>
      && payload.Parsed?
      && ValidateHelloReq(payload.v).Ok?
      && ValidateHelloReq(payload.v).value.protocol == PROTOCOL
      && hasHook && reply.RejectNullish?
    ensures d.Escape? ==> d.error == TypeError
  {
    match payload
    case Unparseable => Refuse(INTERNAL_ERROR_REASON)
    case Parsed(v) =>
      match ValidateHelloReq(v)
      case Throw(_) => Refuse(INTERNAL_ERROR_REASON)
      case Ok(req) =>
        if req.protocol != PROTOCOL then Refuse(WrongProtocolReason(req.protocol))
        else if !hasHook then Admit(req, req.clientState, Truthy(req.readonly))
        else
          match reply
          case Reject(_) => Refuse(INTERNAL_ERROR_REASON)
          // The catch block reads `err.message` of null or undefined and throws.
          case RejectNullish => Escape(TypeError)
          case Accept(clientState, readonly) => Admit(req, clientState, readonly)
  }

  /** The success path: clear the timer, become active, record the room,
      create the room when absent, and add this client to it. */
  function Register(s: Server, n: nat, req: HelloReq, clientState: Value, readonly: bool): (t: Transition)
    requires n in s.conns
    ensures n in t.server.conns
    ensures t.server.conns[n].status == Active && !t.server.conns[n].timerArmed
    ensures t.server.conns[n].roomId == Some(req.roomId)
    ensures t.server.conns[n].isAlive == s.conns[n].isAlive && t.server.conns[n].open == s.conns[n].open
    ensures t.server.conns.Keys == s.conns.Keys
    ensures forall m :: m in s.conns && m != n ==> t.server.conns[m] == s.conns[m]
    ensures t.server.counter == s.counter && t.server.hasHelloHook == s.hasHelloHook
    ensures req.roomId !in s.rooms && req.roomId in INHERITED_NAMES ==>
      t.server.rooms == s.rooms && t.effects == {Close(n, PROTOCOL_ERROR, INTERNAL_ERROR_REASON)}
    ensures !(req.roomId !in s.rooms && req.roomId in INHERITED_NAMES) ==>
      && t.effects == {}
      && t.server.rooms.Keys == s.rooms.Keys + {req.roomId}
      && (forall r :: r in s.rooms && r != req.roomId ==> t.server.rooms[r] == s.rooms[r])
      && t.server.rooms[req.roomId].id == (if req.roomId in s.rooms then s.rooms[req.roomId].id else req.roomId)
      && t.server.rooms[req.roomId].state == (if req.roomId in s.rooms then s.rooms[req.roomId].state else map[])
      && t.server.rooms[req.roomId].clients.Keys ==
           (if req.roomId in s.rooms then s.rooms[req.roomId].clients.Keys else {}) + {ClientId(n)}
      && t.server.rooms[req.roomId].clients[ClientId(n)] ==
           RoomClient(readonly, req.clientType, req.clientName, clientState)
      && (forall c :: req.roomId in s.rooms && c in s.rooms[req.roomId].clients && c != ClientId(n) ==>
            t.server.rooms[req.roomId].clients[c] == s.rooms[req.roomId].clients[c])
  {
    var c := s.conns[n].(timerArmed := false, status := Active, roomId := Some(req.roomId));
    var s1 := s.(conns := s.conns[n := c]);
    var id := req.roomId;
    if id !in s.rooms && id in INHERITED_NAMES then
      // `room.clients[clientId] = ...` on a non-room throws; the catch block closes.
      CloseSocket(s1, n, INTERNAL_ERROR_REASON)
    else
      var room := if id in s.rooms then s.rooms[id] else Room(id, map[], map[]);
      var entry := RoomClient(readonly, req.clientType, req.clientName, clientState);
      Transition(s1.(rooms := s.rooms[id := room.(clients := room.clients[ClientId(n) := entry])]), {})
  }

  /** `tidyUp`: clear the hello timer and delete this client's entry when
      the recorded room id is truthy and both the room and the entry exist.
      The room itself is kept, even when it is left empty. */
  function TidyUp(s: Server, n: nat): (t: Transition)
    requires n in s.conns
    ensures t.server.conns == s.conns[n := s.conns[n].(timerArmed := false)]
    ensures t.server.counter == s.counter && t.server.hasHelloHook == s.hasHelloHook
    ensures t.server.rooms.Keys == s.rooms.Keys
    ensures forall r :: r in s.rooms ==> t.server.rooms[r].id == s.rooms[r].id && t.server.rooms[r].state == s.rooms[r].state
    ensures forall r :: r in s.rooms ==>
      t.server.rooms[r].clients ==
        if Some(r) == s.conns[n].roomId && r != "" then s.rooms[r].clients - {ClientId(n)} else s.rooms[r].clients
    ensures t.effects == if Escapes(s, n) then {Uncaught(n, TypeError)} else {}
  {
    var c := s.conns[n];
    var s1 := s.(conns := s.conns[n := c.(timerArmed := false)]);
    var cid := ClientId(n);
    match c.roomId
    case None => Transition(s1, {})
    case Some(r) =>
      if r == "" then Transition(s1, {})
      else if r in s.rooms then
        if cid in s.rooms[r].clients then
          Transition(s1.(rooms := s.rooms[r := s.rooms[r].(clients := s.rooms[r].clients - {cid})]), {})
        else Transition(s1, {})
      else if r in INHERITED_NAMES then
        // `this.rooms[r].clients[clientId]` reads a property of undefined.
        Transition(s1, {Uncaught(n, TypeError)})
      else Transition(s1, {})
  }

  /** `tidyUp` throws out of the close handler when the recorded room id
      names an inherited member instead of a room. */
  predicate Escapes(s: Server, n: nat)
    requires n in s.conns
  {
    var r := s.conns[n].roomId;
    r.Some? && r.value !in s.rooms && r.value in INHERITED_NAMES
  }

  /** The socket's close event: tidy up; the transport then drops the socket. */
  function OnSocketClosed(s: Server, n: nat): (t: Transition)
    ensures n !in s.conns ==> t == Transition(s, {})
    ensures n in s.conns ==> t.server.rooms == TidyUp(s, n).server.rooms && t.effects == TidyUp(s, n).effects
    ensures n in s.conns ==> n in t.server.conns && !t.server.conns[n].open && !t.server.conns[n].timerArmed
    ensures n in s.conns ==>
      && t.server.conns == s.conns[n := s.conns[n].(timerArmed := false, open := false)]
      && t.server.counter == s.counter && t.server.hasHelloHook == s.hasHelloHook
  {
    if n !in s.conns then Transition(s, {})
    else
      var t := TidyUp(s, n);
      t.(server := t.server.(conns := t.server.conns[n := t.server.conns[n].(open := false)]))
  }

  /** The socket's `disconnect` event: tidy up, as on close, but the socket
      stays with the transport. */
  function OnDisconnect(s: Server, n: nat): (t: Transition)
    ensures n !in s.conns ==> t == Transition(s, {})
    ensures n in s.conns ==>
      && t.server.conns == s.conns[n := s.conns[n].(timerArmed := false)]
      && t.server.counter == s.counter && t.server.hasHelloHook == s.hasHelloHook
      && t.server.rooms == OnSocketClosed(s, n).server.rooms
      && t.effects == OnSocketClosed(s, n).effects
  {
    if n in s.conns then TidyUp(s, n) else Transition(s, {})
  }

  /** The hello timer fires only while armed; it then closes the socket. */
  function OnHelloTimeout(s: Server, n: nat): (t: Transition)
    ensures (n !in s.conns || !s.conns[n].timerArmed) ==> t == Transition(s, {})
    ensures n in s.conns && s.conns[n].timerArmed ==>
      && t.effects == {Close(n, PROTOCOL_ERROR, HELLO_TIMEOUT_REASON)}
      && t.server.rooms == s.rooms
      && t.server.conns == s.conns[n := s.conns[n].(timerArmed := false)]
      && t.server.counter == s.counter && t.server.hasHelloHook == s.hasHelloHook
  {
    if n in s.conns && s.conns[n].timerArmed then CloseSocket(s, n, HELLO_TIMEOUT_REASON)
    else Transition(s, {})
  }

  /** A pong marks the connection alive. */
  function OnPong(s: Server, n: nat): (t: Transition)
    ensures !(n in s.conns && s.conns[n].open) ==> t == Transition(s, {})
    ensures t.effects == {} && t.server.rooms == s.rooms && t.server.conns.Keys == s.conns.Keys
    ensures t.server.counter == s.counter && t.server.hasHelloHook == s.hasHelloHook
    ensures n in s.conns && s.conns[n].open ==> t.server.conns[n].isAlive
    ensures forall m :: m in s.conns ==> t.server.conns[m].(isAlive := s.conns[m].isAlive) == s.conns[m]
    ensures forall m :: m in s.conns && m != n ==> t.server.conns[m] == s.conns[m]
  {
    if n in s.conns && s.conns[n].open then
      Transition(s.(conns := s.conns[n := s.conns[n].(isAlive := true)]), {})
    else Transition(s, {})
  }

  /** The heartbeat: every socket the transport holds that has not answered
      since the last tick is terminated; every other one is marked not alive
      and pinged. */
  function Tick(s: Server): (t: Transition)
    ensures t.server.rooms == s.rooms && t.server.counter == s.counter && t.server.hasHelloHook == s.hasHelloHook
    ensures t.server.conns.Keys == s.conns.Keys
    ensures forall n :: n in s.conns ==> t.server.conns[n].(isAlive := s.conns[n].isAlive) == s.conns[n]
    ensures forall n :: n in s.conns && s.conns[n].open ==> !t.server.conns[n].isAlive
    ensures forall n :: n in s.conns && !s.conns[n].open ==> t.server.conns[n] == s.conns[n]
    ensures forall n :: Terminate(n) in t.effects <==> n in s.conns && s.conns[n].open && !s.conns[n].isAlive
    ensures forall n :: Ping(n) in t.effects <==> n in s.conns && s.conns[n].open && s.conns[n].isAlive
    ensures forall e :: e in t.effects ==> e.Terminate? || e.Ping?
  {
    var conns := map n | n in s.conns ::
      if s.conns[n].open && s.conns[n].isAlive then s.conns[n].(isAlive := false) else s.conns[n];
    var terminated := set n | n in s.conns && s.conns[n].open && !s.conns[n].isAlive :: Terminate(n);
    var pinged := set n | n in s.conns && s.conns[n].open && s.conns[n].isAlive :: Ping(n);
    Transition(s.(conns := conns), terminated + pinged)
  }

  /** Runs a sequence of events, keeping the final state. */
  function Run(s: Server, events: seq<Event>): Server
    decreases |events|
  {
    if |events| == 0 then s else Run(Step(s, events[0]).server, events[1..])
  }

  /** A connection's own fields agree with each other. */
  predicate ConnOk(c: Conn)
  {
    && (c.status == WaitingForHello || c.status == Active)
    && (c.status == WaitingForHello <==> c.roomId.None?)
    && (c.timerArmed ==> c.status == WaitingForHello && c.open)
  }

  /** The invariant of every reachable state. */
  ghost predicate Valid(s: Server)
  {
    && (forall n :: n in s.conns ==> 1 <= n <= s.counter)
    && (forall n :: n in s.conns ==> ConnOk(s.conns[n]))
    && (forall r :: r in s.rooms ==> s.rooms[r].id == r && r !in INHERITED_NAMES)
    && (forall n: nat, r :: r in s.rooms && ClientId(n) in s.rooms[r].clients ==>
          n in s.conns && s.conns[n].roomId == Some(r))
  }
}

=== FILE: ServerProofs.dfy ===
/** Properties of the room server's state machine. */
module RoomServerProofs {

  import opened Js
  import opened Optional
  import opened Messages
  import opened RoomServer
  import Decimal

  /* ------------------------------------------------------------ client ids */

  /** Distinct connection numbers give distinct client ids. */
  lemma ClientIdInjective(a: nat, b: nat)
    ensures ClientId(a) == ClientId(b) ==> a == b
  {
    Decimal.ShowInjective(a, b);
  }

  lemma AllClientIdsInjective()
    ensures forall a: nat, b: nat :: ClientId(a) == ClientId(b) ==> a == b
  {
    forall a: nat, b: nat
      ensures ClientId(a) == ClientId(b) ==> a == b
    {
      ClientIdInjective(a, b);
    }
  }

  /** An accepted connection's id is new: no existing connection has it and
      no room lists it. */
  lemma AcceptAllocatesFreshId(s: Server)
    requires Valid(s)
    ensures s.counter + 1 !in s.conns
    ensures forall m :: m in s.conns ==> ClientId(m) != ClientId(s.counter + 1)
    ensures forall r :: r in s.rooms ==> ClientId(s.counter + 1) !in s.rooms[r].clients
    ensures Step(s, Connect).server.conns.Keys == s.conns.Keys + {s.counter + 1}
  {
    AllClientIdsInjective();
  }

  /** The counter never goes back, and only an accepted connection advances it. */
  lemma CounterIncreasesOnlyOnAccept(s: Server, e: Event)
    ensures Step(s, e).server.counter == if e.Connect? then s.counter + 1 else s.counter
  {
  }

  /* ------------------------------------------------------------- invariant */

  lemma AcceptPreservesValid(s: Server)
    requires Valid(s)
    ensures Valid(Step(s, Connect).server)
  {
    AcceptAllocatesFreshId(s);
  }

  /** Closing a socket only disarms its timer. */
  lemma CloseSocketPreservesValid(s: Server, n: nat, reason: string)
    requires Valid(s) && n in s.conns
    ensures Valid(CloseSocket(s, n, reason).server)
  {
  }

  /** The entry the success path adds belongs to the connection that now
      records its room; every other entry stays where it was. */
  lemma RegisterEntryOwned(s: Server, n: nat, req: HelloReq, clientState: Value, readonly: bool, m: nat, r: string)
    requires Valid(s)
    requires n in s.conns && s.conns[n].status == WaitingForHello
    requires var t := Register(s, n, req, clientState, readonly).server;
      r in t.rooms && ClientId(m) in t.rooms[r].clients
    ensures var t := Register(s, n, req, clientState, readonly).server;
      m in t.conns && t.conns[m].roomId == Some(r)
  {
    var t := Register(s, n, req, clientState, readonly).server;
    var id := req.roomId;
    if r != id || ClientId(m) != ClientId(n) {
      assert r in s.rooms && ClientId(m) in s.rooms[r].clients;
      if m == n {
        assert false;
      }
    } else {
      ClientIdInjective(m, n);
    }
  }

  /** The success path keeps the invariant. */
  lemma RegisterPreservesValid(s: Server, n: nat, req: HelloReq, clientState: Value, readonly: bool)
    requires Valid(s)
    requires n in s.conns && s.conns[n].open && s.conns[n].status == WaitingForHello
    ensures Valid(Register(s, n, req, clientState, readonly).server)
  {
    var t := Register(s, n, req, clientState, readonly).server;
    RegisterConnsOk(s, n, req, clientState, readonly);
    RegisterRoomsOk(s, n, req, clientState, readonly);
    forall m: nat, r | r in t.rooms && ClientId(m) in t.rooms[r].clients
      ensures m in t.conns && t.conns[m].roomId == Some(r)
    {
      RegisterEntryOwned(s, n, req, clientState, readonly, m, r);
    }
  }

  /** After the success path every connection is still numbered in range
      and consistent. */
  lemma RegisterConnsOk(s: Server, n: nat, req: HelloReq, clientState: Value, readonly: bool)
    requires Valid(s)
    requires n in s.conns && s.conns[n].open && s.conns[n].status == WaitingForHello
    ensures var t := Register(s, n, req, clientState, readonly).server;
      && (forall m :: m in t.conns ==> 1 <= m <= t.counter)
      && (forall m :: m in t.conns ==> ConnOk(t.conns[m]))
  {
    var t := Register(s, n, req, clientState, readonly).server;
    forall m | m in t.conns
      ensures ConnOk(t.conns[m])
    {
      if m != n {
        assert t.conns[m] == s.conns[m];
      }
    }
  }

  /** After the success path every room is still keyed by its id, and no
      room is keyed by an inherited name. */
  lemma RegisterRoomsOk(s: Server, n: nat, req: HelloReq, clientState: Value, readonly: bool)
    requires Valid(s)
    requires n in s.conns
    ensures var t := Register(s, n, req, clientState, readonly).server;
      forall r :: r in t.rooms ==> t.rooms[r].id == r && r !in INHERITED_NAMES
  {
    var t := Register(s, n, req, clientState, readonly).server;
    forall r | r in t.rooms
      ensures t.rooms[r].id == r && r !in INHERITED_NAMES
    {
      if r != req.roomId {
        assert t.rooms[r] == s.rooms[r];
      }
    }
  }

  lemma MessagePreservesValid(s: Server, n: nat, payload: Payload, reply: HookReply)
    requires Valid(s)
    ensures Valid(Step(s, Message(n, payload, reply)).server)
  {
    if n in s.conns && s.conns[n].open && s.conns[n].status == WaitingForHello {
      match Decide(s.hasHelloHook, payload, reply)
      case Refuse(reason) => CloseSocketPreservesValid(s, n, reason);
      case Admit(req, clientState, readonly) => RegisterPreservesValid(s, n, req, clientState, readonly);
      case Escape(_) =>
    }
  }

  lemma StepPreservesValid(s: Server, e: Event)
    requires Valid(s)
    ensures Valid(Step(s, e).server)
  {
    match e
    case Connect => AcceptPreservesValid(s);
    case Message(n, payload, reply) => MessagePreservesValid(s, n, payload, reply);
    case HelloTimeout(n) => TimeoutPreservesValid(s, n);
    case HeartbeatTick => TickPreservesValid(s);
    case Pong(n) => PongPreservesValid(s, n);
    case SocketClosed(n) => ClosePreservesValid(s, n);
    case Disconnect(n) => ClosePreservesValid(s, n);
  }

  lemma TimeoutPreservesValid(s: Server, n: nat)
    requires Valid(s)
    ensures Valid(OnHelloTimeout(s, n).server)
  {
    if n in s.conns && s.conns[n].timerArmed {
      CloseSocketPreservesValid(s, n, HELLO_TIMEOUT_REASON);
    }
  }

  lemma TickPreservesValid(s: Server)
    requires Valid(s)
    ensures Valid(Tick(s).server)
  {
    var t := Tick(s).server;
    forall m | m in t.conns
      ensures ConnOk(t.conns[m]) && t.conns[m].roomId == s.conns[m].roomId
    {
      assert t.conns[m].(isAlive := s.conns[m].isAlive) == s.conns[m];
    }
    ValidFromConnFields(s, t);
  }

  lemma PongPreservesValid(s: Server, n: nat)
    requires Valid(s)
    ensures Valid(OnPong(s, n).server)
  {
    var t := OnPong(s, n).server;
    forall m | m in t.conns
      ensures ConnOk(t.conns[m]) && t.conns[m].roomId == s.conns[m].roomId
    {
      assert t.conns[m].(isAlive := s.conns[m].isAlive) == s.conns[m];
    }
    ValidFromConnFields(s, t);
  }

  /** A step that keeps the rooms, the counter and the connection numbers,
      keeps every connection consistent and leaves every recorded room id
      alone keeps the invariant. */
  lemma ValidFromConnFields(s: Server, t: Server)
    requires Valid(s)
    requires t.rooms == s.rooms && t.counter == s.counter && t.conns.Keys == s.conns.Keys
    requires forall m :: m in t.conns ==> ConnOk(t.conns[m]) && t.conns[m].roomId == s.conns[m].roomId
    ensures Valid(t)
  {
  }

  /** The close and disconnect events keep the invariant. */
  lemma ClosePreservesValid(s: Server, n: nat)
    requires Valid(s)
    ensures Valid(OnSocketClosed(s, n).server)
    ensures Valid(OnDisconnect(s, n).server)
  {
    if n in s.conns {
      var t := OnSocketClosed(s, n).server;
      var d := OnDisconnect(s, n).server;
      assert forall r :: r in s.rooms ==> t.rooms[r].clients.Keys <= s.rooms[r].clients.Keys;
      assert d.rooms == t.rooms;
    }
  }

  lemma {:induction false} RunPreservesValid(s: Server, events: seq<Event>)
    requires Valid(s)
    ensures Valid(Run(s, events))
    decreases |events|
  {
    if |events| > 0 {
      StepPreservesValid(s, events[0]);
      RunPreservesValid(Step(s, events[0]).server, events[1..]);
    }
  }

  /** Every state reachable from a fresh server satisfies the invariant. */
  lemma ReachableIsValid(hasHelloHook: bool, events: seq<Event>)
    ensures Valid(Run(Init(hasHelloHook), events))
  {
    RunPreservesValid(Init(hasHelloHook), events);
  }

  /** In a reachable state a client is listed in at most one room, the one
      its connection recorded. */
  lemma ClientInOneRoom(s: Server, n: nat, r1: string, r2: string)
    requires Valid(s)
    requires r1 in s.rooms && ClientId(n) in s.rooms[r1].clients
    requires r2 in s.rooms && ClientId(n) in s.rooms[r2].clients
    ensures r1 == r2
    ensures n in s.conns && s.conns[n].status == Active
  {
  }

  /* ---------------------------------------------------------------- status */

  /** The only status change any event makes is from waiting for the hello
      to active. */
  lemma StatusOnlyBecomesActive(s: Server, e: Event, n: nat)
    requires Valid(s) && n in s.conns
    ensures n in Step(s, e).server.conns
    ensures Step(s, e).server.conns[n].status != s.conns[n].status ==>
      s.conns[n].status == WaitingForHello && Step(s, e).server.conns[n].status == Active
  {
    match e
    case Message(m, payload, reply) =>
      if m == n && s.conns[n].open && s.conns[n].status == WaitingForHello {
        match Decide(s.hasHelloHook, payload, reply)
        case Refuse(reason) =>
        case Admit(req, clientState, readonly) =>
        case Escape(_) =>
      }
    case SocketClosed(m) =>
      if m == n {
        assert TidyUp(s, n).server.conns[n].status == s.conns[n].status;
      }
    case Disconnect(m) =>
      if m == n {
        assert TidyUp(s, n).server.conns[n].status == s.conns[n].status;
      }
    case HeartbeatTick =>
      assert Tick(s).server.conns[n].(isAlive := s.conns[n].isAlive) == s.conns[n];
    case Pong(m) =>
      assert OnPong(s, m).server.conns[n].(isAlive := s.conns[n].isAlive) == s.conns[n];
    case _ =>
  }

  /** A message on a connection that is not waiting for its hello changes nothing. */
  lemma MessageIgnoredUnlessWaiting(s: Server, n: nat, payload: Payload, reply: HookReply)
    requires n in s.conns && s.conns[n].status != WaitingForHello
    ensures Step(s, Message(n, payload, reply)) == Transition(s, {})
  {
  }

  /* ----------------------------------------------------------------- hello */

  /** A hello naming another generic protocol closes the socket with a
      protocol error before the hook is consulted: the hook's answer makes
      no difference, no room is created and no client is registered. */
  lemma WrongProtocolCloses(s: Server, n: nat, v: Value, reply1: HookReply, reply2: HookReply)
    requires n in s.conns && s.conns[n].open && s.conns[n].status == WaitingForHello
    requires ValidateHelloReq(v).Ok? && ValidateHelloReq(v).value.protocol != PROTOCOL
    ensures Step(s, Message(n, Parsed(v), reply1)) == Step(s, Message(n, Parsed(v), reply2))
    ensures Step(s, Message(n, Parsed(v), reply1)).effects ==
      {Close(n, PROTOCOL_ERROR, WrongProtocolReason(ValidateHelloReq(v).value.protocol))}
    ensures Step(s, Message(n, Parsed(v), reply1)).server.rooms == s.rooms
    ensures Step(s, Message(n, Parsed(v), reply1)).server.conns[n] == s.conns[n].(timerArmed := false)
  {
  }

  /** Text that does not parse, a request the validator rejects, or a hook
      that rejects: the socket is closed with the fixed internal-error
      reason and nothing is registered. */
  lemma HelloErrorCloses(s: Server, n: nat, payload: Payload, reply: HookReply)
    requires n in s.conns && s.conns[n].open && s.conns[n].status == WaitingForHello
    requires || payload.Unparseable?
             || ValidateHelloReq(payload.v).Throw?
             || (ValidateHelloReq(payload.v).value.protocol == PROTOCOL && s.hasHelloHook && reply.Reject?)
    ensures Step(s, Message(n, payload, reply)).effects == {Close(n, PROTOCOL_ERROR, INTERNAL_ERROR_REASON)}
    ensures Step(s, Message(n, payload, reply)).server.rooms == s.rooms
    ensures Step(s, Message(n, payload, reply)).server.conns[n] == s.conns[n].(timerArmed := false)
  {
  }

  /** The hello fails inside the `try`: the text does not parse, the
      validator throws, or the configured hook throws. */
  predicate HelloThrows(hasHook: bool, payload: Payload, reply: HookReply)
  {
    || payload.Unparseable?
    || ValidateHelloReq(payload.v).Throw?
    || (ValidateHelloReq(payload.v).value.protocol == PROTOCOL && hasHook && reply.Reject?)
  }

  /** A hook that rejects with null or undefined makes the catch block throw
      in turn: the error escapes the handler and the socket is not closed.
      On a host that survives the escape (Node's default ends the process),
      the connection keeps waiting with its hello timer armed, so the timer
      closes it later. */
  lemma NullishRejectionEscapes(s: Server, n: nat, v: Value)
    requires s.hasHelloHook
    requires n in s.conns && s.conns[n].open && s.conns[n].status == WaitingForHello
    requires ValidateHelloReq(v).Ok? && ValidateHelloReq(v).value.protocol == PROTOCOL
    ensures Step(s, Message(n, Parsed(v), RejectNullish)) == Transition(s, {Uncaught(n, TypeError)})
    ensures s.conns[n].timerArmed ==>
      Step(s, HelloTimeout(n)).effects == {Close(n, PROTOCOL_ERROR, HELLO_TIMEOUT_REASON)}
  {
  }

  /** The close reason does not depend on what was thrown: any two failing
      hellos, whatever their errors, take the server to the same state with
      the same effects. */
  lemma ErrorReasonIgnoresError(s: Server, n: nat, p1: Payload, r1: HookReply, p2: Payload, r2: HookReply)
    requires n in s.conns && s.conns[n].open && s.conns[n].status == WaitingForHello
    requires HelloThrows(s.hasHelloHook, p1, r1) && HelloThrows(s.hasHelloHook, p2, r2)
    ensures Step(s, Message(n, p1, r1)) == Step(s, Message(n, p2, r2))
  {
  }

  /** The wrong-protocol reason names the protocol the client sent, so
      distinct protocols give distinct reasons. */
  lemma WrongProtocolReasonInjective(p1: string, p2: string)
    ensures WrongProtocolReason(p1) == WrongProtocolReason(p2) ==> p1 == p2
  {
    if WrongProtocolReason(p1) == WrongProtocolReason(p2) {
      assert |p1| == |p2|;
      assert WrongProtocolReason(p1)[16..16 + |p1|] == WrongProtocolReason(p2)[16..16 + |p2|];
    }
  }

  /** A successful hello clears the timer, makes the connection active with
      its room recorded, creates an absent room with empty state and no other
      clients, keeps an existing room's state and other clients, and adds
      exactly this client's entry. */
  lemma HelloSuccessRegisters(s: Server, n: nat, payload: Payload, reply: HookReply)
    requires Valid(s)
    requires n in s.conns && s.conns[n].open && s.conns[n].status == WaitingForHello
    requires Decide(s.hasHelloHook, payload, reply).Admit?
    ensures var d := Decide(s.hasHelloHook, payload, reply);
      var id := d.req.roomId;
      var t := Step(s, Message(n, payload, reply));
      id !in INHERITED_NAMES ==>
        && t.effects == {}
        && t.server.conns[n] == s.conns[n].(status := Active, timerArmed := false, roomId := Some(id))
        && t.server.rooms.Keys == s.rooms.Keys + {id}
        && (forall r :: r in s.rooms && r != id ==> t.server.rooms[r] == s.rooms[r])
        && (id !in s.rooms ==>
              t.server.rooms[id] == Room(id, map[ClientId(n) := RoomClient(d.readonly, d.req.clientType, d.req.clientName, d.clientState)], map[]))
        && (id in s.rooms ==>
              t.server.rooms[id] == s.rooms[id].(clients := s.rooms[id].clients[ClientId(n) := RoomClient(d.readonly, d.req.clientType, d.req.clientName, d.clientState)]))
  {
    var d := Decide(s.hasHelloHook, payload, reply);
    var id := d.req.roomId;
    var t := Step(s, Message(n, payload, reply));
    if id !in INHERITED_NAMES {
      var entry := RoomClient(d.readonly, d.req.clientType, d.req.clientName, d.clientState);
      if id !in s.rooms {
        assert t.server.rooms[id].clients == map[ClientId(n) := entry];
      } else {
        assert t.server.rooms[id].clients == s.rooms[id].clients[ClientId(n) := entry];
      }
    }
  }

  /** With no hello hook, the registered client keeps the state it declared
      and is read-only exactly when its `readonly` is truthy, so an absent
      flag registers it as writable. */
  lemma DefaultHelloUsesRequest(s: Server, n: nat, v: Value, reply: HookReply)
    requires Valid(s) && !s.hasHelloHook
    requires n in s.conns && s.conns[n].open && s.conns[n].status == WaitingForHello
    requires ValidateHelloReq(v).Ok? && ValidateHelloReq(v).value.protocol == PROTOCOL
    requires ValidateHelloReq(v).value.roomId !in INHERITED_NAMES
    ensures var req := ValidateHelloReq(v).value;
      var t := Step(s, Message(n, Parsed(v), reply));
      && t.server.rooms[req.roomId].clients[ClientId(n)].clientState == Prop(v, "clientState")
      && t.server.rooms[req.roomId].clients[ClientId(n)].readonly == Truthy(Prop(v, "readonly"))
      && ("readonly" !in v.props ==> !t.server.rooms[req.roomId].clients[ClientId(n)].readonly)
  {
  }

  /** A hello whose room id names an inherited member of a plain object
      throws after the connection became active: the socket is closed with
      the internal-error reason, no room is created, and the later close
      event throws out of `tidyUp`. */
  lemma InheritedRoomIdEscapes(s: Server, n: nat, v: Value, reply: HookReply)
    requires Valid(s)
    requires n in s.conns && s.conns[n].open && s.conns[n].status == WaitingForHello
    requires Decide(s.hasHelloHook, Parsed(v), reply).Admit?
    requires ValidateHelloReq(v).value.roomId in INHERITED_NAMES
    ensures var t1 := Step(s, Message(n, Parsed(v), reply));
      && t1.effects == {Close(n, PROTOCOL_ERROR, INTERNAL_ERROR_REASON)}
      && t1.server.rooms == s.rooms
      && t1.server.conns[n].status == Active
      && Step(t1.server, SocketClosed(n)).effects == {Uncaught(n, TypeError)}
  {
  }

  /** A client registered in the room with the empty id is never removed:
      `tidyUp` tests the id's truthiness. */
  lemma EmptyRoomIdOutlivesClose(s: Server, n: nat)
    requires Valid(s)
    requires n in s.conns && s.conns[n].roomId == Some("")
    requires "" in s.rooms && ClientId(n) in s.rooms[""].clients
    ensures Step(s, SocketClosed(n)).server.rooms == s.rooms
  {
  }

  /* ---------------------------------------------------------------- tidyUp */

  /** `tidyUp` removes the closing client's entry from the room it recorded
      and nothing else; no room is deleted, even one left empty. */
  lemma TidyUpRemovesOnlyOwnEntry(s: Server, n: nat)
    requires Valid(s)
    requires n in s.conns && s.conns[n].roomId.Some? && s.conns[n].roomId.value != ""
    ensures var t := Step(s, SocketClosed(n));
      var r := s.conns[n].roomId.value;
      && t.server.rooms.Keys == s.rooms.Keys
      && (r in s.rooms ==> ClientId(n) !in t.server.rooms[r].clients)
      && (r in s.rooms ==> t.server.rooms[r].clients.Keys == s.rooms[r].clients.Keys - {ClientId(n)})
      && (forall q :: q in s.rooms && q != r ==> t.server.rooms[q] == s.rooms[q])
  {
  }

  /** A `disconnect` followed by the socket's close leaves the server as the
      close alone would. */
  lemma DisconnectThenCloseMatchesClose(s: Server, n: nat)
    ensures Step(Step(s, Disconnect(n)).server, SocketClosed(n)).server == Step(s, SocketClosed(n)).server
  {
    if n in s.conns {
      var t := TidyUp(s, n).server;
      var t2 := TidyUp(t, n).server;
      assert t2.conns == t.conns;
      assert t2.rooms == t.rooms;
    }
  }

  /** A second close-like event changes nothing more. */
  lemma TidyUpIdempotent(s: Server, n: nat)
    requires n in s.conns
    ensures TidyUp(TidyUp(s, n).server, n).server == TidyUp(s, n).server
    ensures var t := Step(s, SocketClosed(n)).server;
      Step(t, SocketClosed(n)).server == t && Step(t, Disconnect(n)).server == t
  {
    var t := TidyUp(s, n).server;
    var t2 := TidyUp(t, n).server;
    assert t2.conns == t.conns;
    assert t2.rooms == t.rooms;
  }

  /* ------------------------------------------------------------- heartbeat */

  /** A connection that answers neither of two consecutive probes is
      terminated at the second tick. */
  lemma TwoSilentTicksTerminate(s: Server, n: nat)
    requires n in s.conns && s.conns[n].open
    ensures Terminate(n) in Step(Step(s, HeartbeatTick).server, HeartbeatTick).effects
  {
  }

  /** A pong between two ticks keeps the connection: it is pinged, not terminated. */
  lemma PongBetweenTicksKeepsAlive(s: Server, n: nat)
    requires n in s.conns && s.conns[n].open
    ensures var t := Step(Step(Step(s, HeartbeatTick).server, Pong(n)).server, HeartbeatTick);
      Terminate(n) !in t.effects && Ping(n) in t.effects
  {
  }

  /** A connection just accepted survives the first tick. */
  lemma NewConnectionSurvivesFirstTick(s: Server)
    ensures var t := Step(Step(s, Connect).server, HeartbeatTick);
      Terminate(s.counter + 1) !in t.effects && Ping(s.counter + 1) in t.effects
  {
  }

  /* ----------------------------------------------------------- hello timer */

  /** An armed hello timer closes the socket with the timeout reason. */
  lemma HelloTimeoutCloses(s: Server, n: nat)
    requires n in s.conns && s.conns[n].timerArmed
    ensures Step(s, HelloTimeout(n)).effects == {Close(n, PROTOCOL_ERROR, HELLO_TIMEOUT_REASON)}
    ensures Step(s, HelloTimeout(n)).server.rooms == s.rooms
  {
  }

  /** Once the hello has succeeded, the hello timer cannot fire. */
  lemma HelloTimeoutIgnoredWhenActive(s: Server, n: nat)
    requires Valid(s)
    requires n in s.conns && s.conns[n].status == Active
    ensures Step(s, HelloTimeout(n)) == Transition(s, {})
  {
  }

  /** After a successful hello the timer is cleared, so a later timeout is
      ignored. */
  lemma TimeoutAfterHelloIgnored(s: Server, n: nat, payload: Payload, reply: HookReply)
    requires n in s.conns && s.conns[n].open && s.conns[n].status == WaitingForHello
    requires Decide(s.hasHelloHook, payload, reply).Admit?
    ensures var t := Step(s, Message(n, payload, reply)).server;
      Step(t, HelloTimeout(n)) == Transition(t, {})
  {
  }
}

=== FILE: TestServerHooks.dfy ===
/**
 The example host policies of the test server: a hello hook that admits
 only one room protocol, a change hook that passes changes through, and an
 action hook that answers the `test` action by echoing it.
 */
module TestServerHooks {

  import opened Js
  import opened Optional
  import opened Messages
  import opened RoomServer

  /** The only room protocol the test server admits. */
  const ROOM_PROTOCOL := "cardographer:1"

  /** The message of the error the hello hook throws for another room protocol. */
  function WrongRoomProtocolMessage(roomProtocol: string): string
  {
    "wrong room protocol (" + roomProtocol + " vs " + ROOM_PROTOCOL + ")"
  }

  /** The socket argument the server's hook call supplies. The hook is
      declared with a fourth parameter, the socket, but src/server.ts:107
      passes three arguments, so the fourth is `undefined`. */
  const SERVER_SOCKET_ARGUMENT := Undefined

  /** The hello hook, given the request and its fourth argument `sws`. It
      first logs `sws.cookies`, which throws a TypeError when `sws` is null
      or undefined. It then rejects (throws) unless the room protocol is the
      test server's, and otherwise keeps the declared client state and makes
      the client read-only exactly when its `readonly` is truthy. */
  function OnHelloReq(req: HelloReq, sws: Value): (r: HookReply)
    ensures Nullish(sws) ==> r == Reject(TypeError)
    ensures r.Accept? <==> !Nullish(sws) && req.roomProtocol == ROOM_PROTOCOL
    ensures r.Accept? ==> r.clientState == req.clientState && r.readonly == Truthy(req.readonly)
    ensures !Nullish(sws) && req.roomProtocol != ROOM_PROTOCOL ==>
      r == Reject(Failed(WrongRoomProtocolMessage(req.roomProtocol)))
  {
    match Get(sws, "cookies")
    case Throw(e) => Reject(e)
    case Ok(_) =>
      if req.roomProtocol != ROOM_PROTOCOL then Reject(Failed(WrongRoomProtocolMessage(req.roomProtocol)))
      else Accept(req.clientState, Truthy(req.readonly))
  }

  /** The changes a change hook decides to apply. */
  datatype ChangeDecision = ChangeDecision(roomChanges: Option<seq<KVSet>>, clientChanges: Option<seq<KVSet>>, echo: bool)

  /** Passes both lists through unchanged, with `echo` made a boolean. */
  function OnChangeReq(req: ChangeReq): (r: ChangeDecision)
    ensures r.roomChanges == req.roomChanges && r.clientChanges == req.clientChanges
    ensures r.echo == Truthy(req.echo)
  {
    ChangeDecision(req.roomChanges, req.clientChanges, Truthy(req.echo))
  }

  /** The action response record. */
  datatype ActionResp = ActionResp(code: nat, id: Value, success: bool, data: Value, msg: Value)

  /** Answers the `test` action with a success that echoes its id and data;
      any other action gets no response (`undefined`). */
  function OnActionReq(req: ActionReq): (r: Option<ActionResp>)
    ensures r.Some? <==> req.action == "test"
    ensures r.Some? ==> r.value.code == ActionResponse.Code() && r.value.success
    ensures r.Some? ==> r.value.id == req.id && r.value.data == req.data && r.value.msg == Undefined
  {
    if req.action == "test" then
      Some(ActionResp(ActionResponse.Code(), req.id, true, req.data, Undefined))
    else None
  }

  /** Given a socket as its fourth argument, the test hello hook admits a
      request for its room protocol exactly as the server's default would. */
  lemma TestHelloHookAgreesWithDefault(s: Server, n: nat, v: Value, sws: Value)
    requires n in s.conns && s.conns[n].open && s.conns[n].status == WaitingForHello
    requires ValidateHelloReq(v).Ok? && ValidateHelloReq(v).value.protocol == PROTOCOL
    requires ValidateHelloReq(v).value.roomProtocol == ROOM_PROTOCOL
    requires !Nullish(sws)
    ensures var reply := OnHelloReq(ValidateHelloReq(v).value, sws);
      var withHook := Step(s.(hasHelloHook := true), Message(n, Parsed(v), reply));
      var withoutHook := Step(s.(hasHelloHook := false), Message(n, Parsed(v), reply));
      withHook.effects == withoutHook.effects
      && withHook.server.rooms == withoutHook.server.rooms
      && withHook.server.conns == withoutHook.server.conns
  {
    var req := ValidateHelloReq(v).value;
    var reply := OnHelloReq(req, sws);
    assert Decide(true, Parsed(v), reply) == Decide(false, Parsed(v), reply);
  }

  /** Plugged into the server, with or without a socket argument, the test
      hello hook makes a request for any other room protocol close the
      socket and register nothing. */
  lemma TestHelloHookRefusesOtherRoomProtocol(s: Server, n: nat, v: Value, sws: Value)
    requires s.hasHelloHook
    requires n in s.conns && s.conns[n].open && s.conns[n].status == WaitingForHello
    requires ValidateHelloReq(v).Ok? && ValidateHelloReq(v).value.protocol == PROTOCOL
    requires ValidateHelloReq(v).value.roomProtocol != ROOM_PROTOCOL
    ensures var t := Step(s, Message(n, Parsed(v), OnHelloReq(ValidateHelloReq(v).value, sws)));
      t.effects == {Close(n, PROTOCOL_ERROR, INTERNAL_ERROR_REASON)} && t.server.rooms == s.rooms
  {
  }

  /** Called as the server calls it, without a socket, the test hello hook
      throws on every request: every hello that names the right generic
      protocol closes the socket with the internal-error reason, and the
      connection stays unregistered, still waiting for its hello. */
  lemma TestHelloHookAdmitsNoOneInThisServer(s: Server, n: nat, v: Value)
    requires s.hasHelloHook
    requires n in s.conns && s.conns[n].open && s.conns[n].status == WaitingForHello
    requires ValidateHelloReq(v).Ok? && ValidateHelloReq(v).value.protocol == PROTOCOL
    ensures var t := Step(s, Message(n, Parsed(v), OnHelloReq(ValidateHelloReq(v).value, SERVER_SOCKET_ARGUMENT)));
      && t.effects == {Close(n, PROTOCOL_ERROR, INTERNAL_ERROR_REASON)}
      && t.server.rooms == s.rooms
      && t.server.conns[n] == s.conns[n].(timerArmed := false)
  {
  }

  /** After validation the change hook echoes exactly when the request's
      `echo` is the boolean true, and applies what was validated. */
  lemma ChangeHookAfterValidation(m: Value, req: ChangeReq)
    requires ValidateChangeReq(m) == Ok(req)
    ensures OnChangeReq(req).echo <==> Prop(m, "echo") == Bool(true)
    ensures !Truthy(Prop(m, "roomChanges")) ==> OnChangeReq(req).roomChanges == None && OnChangeReq(req).clientChanges == None
  {
  }

  /** Correlation: the response to a validated `test` action carries the
      request's own id and data, whatever they are. */
  lemma ActionHookEchoesId(m: Value, req: ActionReq)
    requires ValidateActionReq(m) == Ok(req)
    ensures req.action == "test" ==>
      OnActionReq(req) == Some(ActionResp(ActionResponse.Code(), Prop(m, "id"), true, Prop(m, "data"), Undefined))
    ensures req.action != "test" ==> OnActionReq(req) == None
  {
  }
}
